=== FILE: README.md ===
# Hostel management: CMS initialisation and booking backend, modelled in Dafny

This project models two cores of the hostel management system.

**The CMS initialisation script** (`cms/scripts/init-cms.js`) prepares a Strapi
CMS. It loads the framework and checks the database with `SELECT 1`. It creates
the admin account unless one with the configured email exists, and looks up
the public and authenticated roles. It then seeds two lookup tables, room types
and facilities, by inserting each manifest entry whose name is absent. A
`health` command loads, pings and counts admin accounts. Any other command
prints the usage and exits with code 1.

The framework is modelled as a store of collections (`CmsStore.Store`: a
map from collection uid to a sequence of records). Every framework call is a
`CmsStore.Call` value, and a step returns the trace of calls it issued. Which
calls throw is a parameter `faults: set<Call>`; a call in that set throws. The
store after a step is always the initial store with the step's successful
creates applied (`CmsStore.Replay`). A step without its own error handling ends
on the first call that throws (`CmsStore.StopsAtFirstFault`).

**The Django booking backend** (`backend/hostel_management`) covers these parts:

- the `Room` and `Booking` models, with their choices, defaults, column limits and listing order;
- the price fallback in `Booking.save`;
- `BookingSerializer`, with its read-only fields, date validation and pricing on create;
- the REST views, which require an authenticated user;
- the booking views, which see only the requesting user's bookings. A booking POST validates the body and then always fails, because `create` drops the room (see "Findings"); `HostelViews.CreateBookingIntended` is the POST with the room passed on, which gives the new booking to the requesting user.

Text fields follow the Django REST framework `CharField` defaults. A
submitted string is stripped of leading and trailing whitespace, as Python's
`str.strip()` does (`TextFields.Trim`). Length and uniqueness checks see the
stripped value, and the stripped value is stored. A room number that strips
to nothing is rejected as blank. A text value holding the NUL character is
rejected. The framework also rejects surrogate code points; a Dafny `char` is
a Unicode scalar value, so a modelled string cannot hold one.

Dates are day numbers and money is an integer number of cents. The current
date and time are parameters. Database tables are sequences (`HostelViews.Db`).

Some behaviours of the script that the model states explicitly:

- The first error in `seedRoomTypes` or `seedFacilities` ends the whole `seedDefaultData` call. The remaining room types are not created, the facilities are not seeded at all, and the error is swallowed.
- A failing role lookup in `setupDefaultPermissions` is rethrown and ends the run with exit code 1. An absent role is not an error.
- Seeding reports its outcomes only through log lines, and logging is not modelled.
- `process.exit(1)` in the `catch` of `initializeCMS` ends the process at once. So the `finally` block, with `destroy` and `exit(0)`, runs only after success.

Two consequences of the Django code are proved rather than assumed. First, a
partial update (PATCH) checks the dates only when both are submitted. Second,
`save` never recomputes a total it already has. So a PATCH that moves only the
check-out before the check-in is accepted and keeps an old non-zero total
(`HostelViews.PartialUpdateCanReverseDates`, for any such booking of the
requester).

## Model

| member | source | states |
|---|---|---|
| CmsStore.Where | cms/scripts/init-cms.js:187-189 | every record the name lookup returns is stored and has that `name`, every stored record with that `name` is returned, and the result is no longer than the collection |
| CmsStore.WhereCounts | cms/scripts/init-cms.js:187-189 | the name lookup returns each matching record exactly as many times as it is stored, and no copy of any other record |
| CmsStore.Insert | cms/scripts/init-cms.js:192-194 | a create appends the record to its collection and leaves every other collection as it is |
| Admin.ConfigFromEnv | cms/scripts/init-cms.js:87-94 | each admin field is the environment variable when set and non-empty, otherwise the fixed default (`admin@hostel.local`, `Admin123!`, ...); email, username and password are never empty |
| Admin.ConfigFromEnvReadsAdminVariablesOnly | cms/scripts/init-cms.js:87-94 | the admin descriptor depends on the five `ADMIN_*` variables only |
| Admin.CreateAdminUser | cms/scripts/init-cms.js:72-108 | the step looks the account up by the configured email, and when it is absent hashes the password and creates the account, in that order; it ends on the first call that throws, so a failing hash aborts it; it writes only the admin collection; an existing account or an error leaves the store unchanged; otherwise it appends exactly the account record with the hashed password |
| Admin.CreateAdminUserAppendsAccount | cms/scripts/init-cms.js:86-101 | with no matching account and no error, exactly one active account is appended after the old ones, carrying the configured email and username and the hash of the configured password |
| Admin.CreateAdminUserKeepsExisting | cms/scripts/init-cms.js:76-84 | once an account with the configured email exists, the step changes nothing, whatever the password and whatever fails, and creates nothing when it succeeds |
| Admin.CreateAdminUserIdempotent | cms/scripts/init-cms.js:76-101 | after a failure-free step the account exists, and a second step is a single lookup that changes nothing |
| Admin.SetupDefaultPermissions | cms/scripts/init-cms.js:110-146 | the step looks up the public role, then the authenticated role, and makes no other call; it never writes, and a failing lookup ends it |
| Seeding.SeedPass | cms/scripts/init-cms.js:186-197 | a pass handles at most the whole manifest and fails exactly when it stops early; it writes only its own collection, and the old records stay as a prefix |
| Seeding.SeedPassStops | cms/scripts/init-cms.js:186-197 | a pass ends on the first call that throws, and no earlier call threw |
| Seeding.SeedPassStaysOnCollection | cms/scripts/init-cms.js:187-194 | every call of a pass, and its error, is a name lookup or a create on the pass's own collection |
| Seeding.SeedPassReplay | cms/scripts/init-cms.js:186-197 | the store after a pass is the old store with the pass's successful creates applied |
| Seeding.SeedPassInsertsMissing | cms/scripts/init-cms.js:186-197 | with no failure and distinct manifest names, the collection becomes its old records followed by the manifest records whose name was absent, in manifest order (reference definition `Missing`) |
| Seeding.SeedPassNameCounts | cms/scripts/init-cms.js:191-196 | after a failure-free pass, each manifest name occurs max(old count, 1) times: a missing name is added once and a present name gets no copy |
| Seeding.SeedPassCovers | cms/scripts/init-cms.js:186-197 | after a failure-free pass, every manifest name is present, even when names repeat |
| Seeding.SeedPassOnSeededStore | cms/scripts/init-cms.js:191-196 | a pass over names that are all present changes nothing and creates nothing |
| Seeding.SeedPassIdempotent | cms/scripts/init-cms.js:186-197 | a second failure-free pass from the first pass's result changes nothing and creates nothing |
| Seeding.SeedPassStopsEarly | cms/scripts/init-cms.js:186-197 | under failures, the store equals a failure-free pass over only the entries handled before the error; the failing entry and all later ones are not created |
| Seeding.ScriptManifestHasDistinctNames | cms/scripts/init-cms.js:178-212 | the script's room-type and facility manifests each have distinct names |
| Seeding.SeedIfRegistered | cms/scripts/init-cms.js:157-164 | a collection whose content type is not registered is not touched and gets no call |
| Seeding.SeedDefaultData | cms/scripts/init-cms.js:148-173 | seeding writes only the two lookup collections, and writes neither one when its content type is unregistered; old records stay as prefixes |
| Seeding.SeedDefaultDataStops | cms/scripts/init-cms.js:151-172 | seeding ends on the first call that throws, and the error is reported as swallowed; the store is the old store with the successful creates applied |
| Seeding.SeedDefaultDataCollections | cms/scripts/init-cms.js:157-164 | seeding only calls on the two lookup collections; when a room-type call fails, no facility call is made |
| Seeding.SeedDefaultDataInsertsMissing | cms/scripts/init-cms.js:148-173 | with no failure and both content types registered, each lookup collection gains exactly its missing manifest records |
| Seeding.SeedDefaultDataIdempotent | cms/scripts/init-cms.js:148-173 | a second failure-free seeding from the first one's result changes nothing, creates nothing and swallows nothing |
| InitCms.InitializeCms | cms/scripts/init-cms.js:17-56 | the exit code is 1 exactly when a must-succeed step failed; only the admin and lookup collections are written; a failure before shutdown means no `destroy` and untouched lookup collections; a failed load or ping leaves the store unchanged with exit code 1 |
| InitCms.InitializeCmsStartsWithLoad | cms/scripts/init-cms.js:22-28 | every run starts by loading the framework |
| InitCms.InitializeCmsReplay | cms/scripts/init-cms.js:22-55 | the store after a run is the old store with the run's successful creates applied |
| InitCms.InitializeCmsStops | cms/scripts/init-cms.js:22-55 | a failed run ends on the call that threw, and before a must-succeed failure no other call threw; a successful run ends with `destroy` |
| InitCms.InitializeCmsExitCode | cms/scripts/init-cms.js:46-55 | exit code 0 holds exactly when load, ping, the admin step, both role lookups and `destroy` all succeed, whatever the seeding calls do |
| InitCms.InitializeCmsKeepsExistingAdmin | cms/scripts/init-cms.js:33-42 | when the configured admin account exists, a run leaves the admin collection unchanged, whatever fails |
| InitCms.InitializeCmsWithoutFaults | cms/scripts/init-cms.js:22-55 | a failure-free run is the load, the ping, the admin step, the two role lookups, the seeding and `destroy`, in that order, with exit code 0 |
| InitCms.InitializeCmsCompletes | cms/scripts/init-cms.js:22-44 | a failure-free run with both content types registered exits 0, leaves the admin account present and adds exactly the missing lookup records |
| InitCms.InitializeCmsOnInitializedStore | cms/scripts/init-cms.js:17-56 | a failure-free run from a store that has the admin account, and on which seeding creates nothing, exits 0 and creates nothing |
| InitCms.InitializeCmsIdempotent | cms/scripts/init-cms.js:17-56 | a second failure-free run from the first run's result exits 0, changes nothing and creates nothing |
| InitCms.HealthCheck | cms/scripts/init-cms.js:229-254 | the health check calls load, ping, count and `destroy` in that order, never writes, and makes all four calls when it exits 0; it exits 0 exactly when none of them throws, and then reports the number of admin accounts; otherwise it exits 1 on the first call that threw |
| InitCms.Dispatch | cms/scripts/init-cms.js:257-271 | the script exits with 0 or 1; `init` has exactly the exit code, store and trace of the initialisation over the script's own manifests; `health` exits 1 exactly when one of load, ping, admin count and `destroy` throws, and never writes; no command other than `init` changes the store |
| InitCms.DispatchReadsCommandOnly | cms/scripts/init-cms.js:257-259 | the outcome depends on the arguments only through `process.argv[2]` |
| InitCms.DispatchUsage | cms/scripts/init-cms.js:257-271 | a missing or unknown command exits 1 without any framework call; `init` and `health` both start by loading the framework |
| InitCms.DispatchSucceedsOnlyAfterShutdown | cms/scripts/init-cms.js:259-265 | exit code 0 means `init` or `health` ran and its last call was a successful `destroy` |
| HostelModels.ParseRoomType | backend/hostel_management/models.py:6-11 | a stored room-type key selects exactly the choice with that key, and any other key is rejected |
| HostelModels.ParseRoomStatus | backend/hostel_management/models.py:13-18 | a stored room-status key selects exactly the choice with that key, and any other key is rejected |
| HostelModels.ParseBookingStatus | backend/hostel_management/models.py:38-43 | a stored booking-status key selects exactly the choice with that key, and any other key is rejected |
| HostelModels.NewRoom | backend/hostel_management/models.py:24 | a room built without a status is available |
| HostelModels.Save | backend/hostel_management/models.py:61-67 | a saved booking always has a total and differs from the instance in the total only; a non-zero total is kept; a missing or zero total becomes the nightly price times the nights |
| HostelModels.SaveIdempotent | backend/hostel_management/models.py:61-67 | saving a saved booking again changes nothing |
| HostelModels.SaveAcceptsReversedDates | backend/hostel_management/models.py:62-66 | `save` does not check the dates: with check-out before check-in and a positive price, the fallback total is negative |
| HostelModels.ListingOrdersArePreorders | backend/hostel_management/models.py:30-31 | ordering rooms by number and bookings by newest creation time are both total and transitive |
| HostelModels.OrderRooms | backend/hostel_management/models.py:30-31 | the room listing is a permutation of the rooms, in ascending number order |
| HostelModels.OrderBookings | backend/hostel_management/models.py:55-56 | the booking listing is a permutation of the bookings, newest first |
| TextFields.Trim | backend/hostel_management/serializers.py:29-35 | a stripped text value neither starts nor ends with whitespace, is empty exactly when the input is all whitespace, and is otherwise the input with its whitespace runs at both ends cut off |
| TextFields.TrimIdempotent | backend/hostel_management/serializers.py:29-35 | stripping a stripped value changes nothing |
| TextFields.TrimKeepsNul | backend/hostel_management/serializers.py:29-35 | a value holds NUL after stripping exactly when it held one before |
| BookingSerializer.ParseFields | backend/hostel_management/serializers.py:24-35 | on a full write, `room_id` and both dates are required; a status must be a choice; `special_requests` must not hold NUL once stripped; the data is valid exactly when none of these fails, and each error is reported exactly when its condition holds; valid data keeps the submitted writable fields, with `special_requests` stripped |
| BookingSerializer.ReadOnlyFieldsIgnored | backend/hostel_management/serializers.py:35 | `user`, `total_price` and `id` in a submitted body do not affect the validated data |
| BookingSerializer.Validate | backend/hostel_management/serializers.py:37-55 | with both dates present, the data passes exactly when check-out is after check-in and check-in is not in the past; the ordering error wins when both rules fail; data with a date missing passes unchanged |
| BookingSerializer.FindRoom | backend/hostel_management/serializers.py:62 | the room found has the requested id, and no room has it when none is found |
| BookingSerializer.CreateDraft | backend/hostel_management/serializers.py:57-66 | `create` fails with `DoesNotExist` exactly when the room is missing; otherwise the data it passes on has no room, the given owner, the submitted dates, a total of the room's nightly price times the nights, and a status defaulting to pending |
| BookingSerializer.Persist | backend/hostel_management/models.py:46-67 | saving a booking without a room always fails: reading `self.room` when the total is unset or zero, inserting a null `room_id` otherwise; with a room, the saved booking carries the given fields and the `save` pricing |
| BookingSerializer.Create | backend/hostel_management/serializers.py:57-68 | `create` as written never creates a booking: it fails on a missing room, on reading the unset room when the computed total is zero, and on the null `room_id` otherwise |
| BookingSerializer.CreateWithRoom | backend/hostel_management/serializers.py:57-68 | with the room passed on, creation fails exactly when the room does not exist; otherwise the booking is on that room, the total is the nightly price times the nights, the status defaults to pending, and the owner is the given user |
| BookingSerializer.CreateFailsWhereIntendedSaves | backend/hostel_management/serializers.py:61-68 | the create with the room passed on succeeds exactly when the create as written fails after finding the room |
| BookingSerializer.DraftTotalCoversOneNight | backend/hostel_management/serializers.py:44-66 | the total `create` computes from validated dates covers at least one night, so with a non-negative price it is at least one night's price |
| BookingSerializer.Update | backend/hostel_management/serializers.py:27-35 | an update fails exactly when the target room does not exist; it keeps id, owner and creation time; it re-points the booking at a submitted `room_id`; it takes the submitted dates, status and requests and keeps the others; it keeps a non-zero total, and otherwise prices the new nights at the new room's rate |
| BookingSerializer.EmptyUpdateKeepsBooking | backend/hostel_management/models.py:61-67 | an update that submits nothing leaves a priced booking on an existing room as it was |
| HostelViews.OwnBookings | backend/hostel_management/views.py:24-25 | the queryset holds exactly the bookings of the requesting user |
| HostelViews.OwnBookingsExact | backend/hostel_management/views.py:24-25 | the queryset keeps every copy of the user's bookings and no copy of another user's |
| HostelViews.ListBookings | backend/hostel_management/views.py:20-25 | an anonymous request is refused and an authenticated one succeeds; the list is exactly the user's bookings, with their multiplicities, newest first |
| HostelViews.OwnBooking | backend/hostel_management/views.py:35-36 | the detail lookup is not found exactly when the user owns no booking with that id |
| HostelViews.RetrieveBooking | backend/hostel_management/views.py:31-36 | a retrieved booking belongs to the requesting user and has the requested id; an anonymous request is refused; the answer is not found exactly when the user owns no booking with that id, and there is no other error |
| HostelViews.UpdateBooking | backend/hostel_management/views.py:31-36 | an update reaches only the user's own booking; invalid fields, then invalid dates, are reported; a failing save is a server error; otherwise the booking becomes the serializer update's result, keeps its id and owner, and is replaced in place |
| HostelViews.DestroyBooking | backend/hostel_management/views.py:31-36 | a delete reaches only the user's own booking, and the table becomes exactly the old table without the rows of that id, in order |
| HostelViews.CreateBooking | backend/hostel_management/views.py:20-28 | a booking POST never stores a booking: anonymous requests are refused, invalid fields and invalid dates are reported, and a valid body ends in a server error |
| HostelViews.CreateBookingIntended | backend/hostel_management/views.py:20-28 | with the room passed on, a created booking belongs to the requester, gets a fresh id, has valid dates and is appended; a valid body is stored exactly when its room exists; anonymous requests are refused |
| HostelViews.CreateBookingFailsWhereIntendedStores | backend/hostel_management/serializers.py:61-68 | wherever the intended POST stores a booking, the POST as written answers with a server error |
| HostelViews.CreateBookingDropsRoom | backend/hostel_management/serializers.py:61-68 | a valid three-night booking of an existing room fails as written and is stored, priced 150.00, when the room is passed on |
| HostelViews.CreateBookingIgnoresReadOnlyFields | backend/hostel_management/views.py:27-28 | `user`, `total_price` and `id` in the body do not change the outcome of a POST, as written or intended |
| HostelViews.OthersBookingsNotFound | backend/hostel_management/views.py:35-36 | retrieving, updating or deleting another user's booking reports not found |
| HostelViews.DestroyKeepsOthersBookings | backend/hostel_management/views.py:35-36 | deleting one's own booking keeps every other user's bookings |
| HostelViews.CreateBookingIntendedKeepsDbValid | backend/hostel_management/views.py:27-28 | a create through the intended POST keeps booking ids unique and every stored booking priced |
| HostelViews.UpdateBookingKeepsDbValid | backend/hostel_management/views.py:31-36 | an update keeps booking ids unique and every stored booking priced |
| HostelViews.DestroyBookingKeepsDbValid | backend/hostel_management/views.py:31-36 | a delete keeps booking ids unique and every stored booking priced |
| HostelViews.PartialUpdateCanReverseDates | backend/hostel_management/serializers.py:44-53 | for any priced booking of the requester on an existing room, a PATCH with only a check-out date before the check-in is accepted, stores the reversed dates and keeps the old total |
| HostelViews.RoomErrors | backend/hostel_management/models.py:20-25 | each room field error is reported exactly when it applies: the number is missing, or once stripped is blank, holds NUL, is longer than 10 characters or is taken; the type is missing or not a choice; the capacity is missing or negative; the price is missing or does not fit the decimal column; the status is not a choice; the stripped description holds NUL |
| HostelViews.CreateRoom | backend/hostel_management/views.py:8-11 | an anonymous request is refused; invalid fields are reported all together, and an authenticated request with no invalid field succeeds; a created room gets a fresh id and is appended, with its number and description stripped, the submitted type, capacity and price, and the submitted status or available |
| HostelViews.CreateRoomKeepsRoomsValid | backend/hostel_management/models.py:20 | a created room keeps room numbers unique and at most 10 characters long |
| HostelViews.ListRooms | backend/hostel_management/views.py:8-11 | an anonymous request is refused and an authenticated one succeeds with every room, ordered by number |
| HostelViews.RetrieveRoom | backend/hostel_management/views.py:14-17 | an authenticated user can retrieve any room by id; the only errors are the refused anonymous request and not found, which holds exactly when no room has that id |

## Findings

| source | as written | input that shows it | evidently intended | confidence | as-written member | corrected member |
|---|---|---|---|---|---|---|
| backend/hostel_management/serializers.py:61-68 | `create` pops `room_id`, looks the room up only to price the booking, and calls `super().create(validated_data)` with no room; `Booking.room` is a non-null foreign key (models.py:46), so the save fails: `self.room` raises when the total is zero, and the insert of a null `room_id` raises otherwise | room 1 at 50.00 a night exists; user 3 POSTs `room_id` 1, check-in on day 100 and check-out on day 103, with today day 100 | pass the room on (`room=room`), storing the booking with a total of 150.00 | high; not executed | BookingSerializer.Create, HostelViews.CreateBooking, HostelViews.CreateBookingDropsRoom | BookingSerializer.CreateWithRoom, HostelViews.CreateBookingIntended, HostelViews.CreateBookingIntendedKeepsDbValid |

## Left out

- Logging, the usage text, and the emoji progress messages are not modelled. They have no effect on the store or the exit code.
- The public permission list in `setupDefaultPermissions` is built but never applied, so the model only records the two role lookups.
- Password hashing is a parameter `hash`. The users-permissions hashing internals are not part of this model.
- The contents of `strapi.contentTypes` are a parameter, as the set of registered uids.
- The ids and timestamps that Strapi adds to created records are not modelled.
- Concurrent runs of the script are not modelled, and neither are database uniqueness constraints on the CMS side.
- InitCms.InitializeCms: a rejected `destroy` in the `finally` of `initializeCMS` is modelled only through the exit code and the trace. The model does not describe an unhandled-rejection stack trace.
- Seeding.SeedDefaultData and InitCms.InitializeCms take the manifests as a parameter. `InitCms.Dispatch` passes the script's own manifests (`Seeding.ScriptManifest`).
- Room numbers are ordered by code point. The database collation may order them differently.
- The `amenities` JSON field and the `updated_at` timestamps are not modelled.
- HostelViews.RoomErrors: the upper bound 2147483647 of the capacity column is not checked.
- HostelModels.Save: whether the computed total fits `max_digits=10` is not checked. The database write of a larger total fails, while the model's `Save` succeeds.
- The room update and delete views (`RoomDetailView` PUT, PATCH, DELETE) and `UserSerializer` are not modelled. They are plain framework defaults with no project logic.
- Time zones are not modelled. "Today" for `validate` and "now" for `created_at` are parameters.
- Authentication itself (sessions, tokens) is not modelled. A request carries an optional user id.

=== FILE: admin.dfy ===
/**
 * The admin-account and permission steps of the CMS initialisation script.
 * Both are must-succeed: an error in either ends the run.
 */
module Admin {
  import opened Wrappers
  import opened CmsStore

  /** The process environment, as read by `process.env.X`. */
  type Env = map<string, string>

  /** `process.env[key] || fallback`: an unset or empty variable yields the fallback. */
  function EnvOr(env: Env, key: string, fallback: string): (v: string)
    ensures key in env && env[key] != "" ==> v == env[key]
    ensures key !in env || env[key] == "" ==> v == fallback
  {
    if key in env && env[key] != "" then env[key] else fallback
  }

  /** The admin descriptor the script builds, the password still in plain text. */
  datatype AdminConfig = AdminConfig(username: string, email: string, firstname: string, lastname: string, password: string)

  /** Whether `process.env[key]` is set to a non-empty string, so that `||` takes it. */
  predicate Given(env: Env, key: string)
  {
    key in env && env[key] != ""
  }

  /**
   * The admin descriptor: each field is its environment variable when that
   * is set and non-empty, and the script's default otherwise.
   */
  function ConfigFromEnv(env: Env): (cfg: AdminConfig)
    ensures cfg.email != "" && cfg.username != "" && cfg.password != ""
    ensures cfg.username == if Given(env, "ADMIN_USERNAME") then env["ADMIN_USERNAME"] else "admin"
    ensures cfg.email == if Given(env, "ADMIN_EMAIL") then env["ADMIN_EMAIL"] else "admin@hostel.local"
    ensures cfg.firstname == if Given(env, "ADMIN_FIRSTNAME") then env["ADMIN_FIRSTNAME"] else "Hostel"
    ensures cfg.lastname == if Given(env, "ADMIN_LASTNAME") then env["ADMIN_LASTNAME"] else "Admin"
    ensures cfg.password == if Given(env, "ADMIN_PASSWORD") then env["ADMIN_PASSWORD"] else "Admin123!"
  {
    AdminConfig(
      EnvOr(env, "ADMIN_USERNAME", "admin"),
      EnvOr(env, "ADMIN_EMAIL", "admin@hostel.local"),
      EnvOr(env, "ADMIN_FIRSTNAME", "Hostel"),
      EnvOr(env, "ADMIN_LASTNAME", "Admin"),
      EnvOr(env, "ADMIN_PASSWORD", "Admin123!"))
  }

  /**
   * The descriptor depends on the five `ADMIN_*` variables only: two
   * environments that agree on them yield the same admin account.
   */
  lemma ConfigFromEnvReadsAdminVariablesOnly(env: Env, other: Env)
    requires forall key | key in {"ADMIN_USERNAME", "ADMIN_EMAIL", "ADMIN_FIRSTNAME", "ADMIN_LASTNAME", "ADMIN_PASSWORD"} ::
      (key in env <==> key in other) && (key in env ==> env[key] == other[key])
    ensures ConfigFromEnv(env) == ConfigFromEnv(other)
  {
  }

  const AdminUid := "admin::user"
  const RoleUid := "plugin::users-permissions.role"

  /** The data passed to `create` for the admin account, with the password already hashed. */
  function AdminRecord(cfg: AdminConfig, hashed: string): (r: Record)
  {
    map[
      "username" := Text(cfg.username),
      "email" := Text(cfg.email),
      "firstname" := Text(cfg.firstname),
      "lastname" := Text(cfg.lastname),
      "password" := Text(hashed),
      "isActive" := Flag(true)]
  }

  /** Whether an account with this exact email is stored. */
  predicate HasAccount(s: Store, email: string)
  {
    |Where(Coll(s, AdminUid), "email", email)| > 0
  }

  /**
   * `createAdminUser`: look the account up by email; when it exists, leave
   * everything as it is; otherwise hash the password (`hash` stands for the
   * users-permissions `hashPassword`, whose internals are not modelled) and
   * create the account. Any error propagates.
   */
  function CreateAdminUser(s: Store, cfg: AdminConfig, hash: string -> string, faults: set<Call>): (r: Effect)
    ensures StopsAtFirstFault(r.trace, r.error, faults)
    ensures r.store == Replay(s, r.trace, faults)
    ensures |r.trace| > 0 && r.trace[0] == FindOne(AdminUid, "email", cfg.email)
    ensures HasAccount(s, cfg.email) ==> r.trace == [FindOne(AdminUid, "email", cfg.email)]
    ensures !HasAccount(s, cfg.email) ==>
      r.trace <= [FindOne(AdminUid, "email", cfg.email), HashPassword(cfg.password), Create(AdminUid, AdminRecord(cfg, hash(cfg.password)))]
    ensures !HasAccount(s, cfg.email) && r.error.None? ==>
      r.trace == [FindOne(AdminUid, "email", cfg.email), HashPassword(cfg.password), Create(AdminUid, AdminRecord(cfg, hash(cfg.password)))]
    ensures r.store - {AdminUid} == s - {AdminUid}
    ensures HasAccount(s, cfg.email) || r.error.Some? ==> r.store == s
    ensures !HasAccount(s, cfg.email) && r.error.None? ==>
      Coll(r.store, AdminUid) == Coll(s, AdminUid) + [AdminRecord(cfg, hash(cfg.password))]
  {
    var find := FindOne(AdminUid, "email", cfg.email);
    if find in faults then Effect(s, [find], Some(find))
    else if HasAccount(s, cfg.email) then Effect(s, [find], None)
    else
      var hashing := HashPassword(cfg.password);
      if hashing in faults then
        ReplayWithoutCreates(s, [find, hashing], faults);
        Effect(s, [find, hashing], Some(hashing))
      else
        var create := Create(AdminUid, AdminRecord(cfg, hash(cfg.password)));
        if create in faults then
          ReplayWithoutCreates(s, [find, hashing, create], faults);
          Effect(s, [find, hashing, create], Some(create))
        else
          ReplayWithoutCreates(s, [find, hashing], faults);
          ReplayConcat(s, [find, hashing], [create], faults);
          assert [find, hashing] + [create] == [find, hashing, create];
          assert Replay(s, [create], faults) == Replay(Insert(s, AdminUid, create.record), [], faults);
          Effect(Insert(s, AdminUid, create.record), [find, hashing, create], None)
  }

  /**
   * When no account has the configured email and nothing fails, exactly one
   * active account is appended, with the configured email and username and
   * the hash of the configured password; earlier accounts stay as they are.
   */
  lemma CreateAdminUserAppendsAccount(s: Store, cfg: AdminConfig, hash: string -> string, faults: set<Call>)
    requires !HasAccount(s, cfg.email)
    requires CreateAdminUser(s, cfg, hash, faults).error.None?
    ensures var before := Coll(s, AdminUid);
      var after := Coll(CreateAdminUser(s, cfg, hash, faults).store, AdminUid);
      && |after| == |before| + 1
      && after[..|before|] == before
      && Matches(after[|before|], "email", cfg.email)
      && Matches(after[|before|], "username", cfg.username)
      && Matches(after[|before|], "password", hash(cfg.password))
      && "isActive" in after[|before|] && after[|before|]["isActive"] == Flag(true)
  {
    var before := Coll(s, AdminUid);
    var after := Coll(CreateAdminUser(s, cfg, hash, faults).store, AdminUid);
    assert after[..|before|] == before;
  }

  /** The admin step only looks up, hashes and creates: it never shuts the framework down. */
  lemma CreateAdminUserKeepsConnection(s: Store, cfg: AdminConfig, hash: string -> string, faults: set<Call>)
    ensures forall c | c in CreateAdminUser(s, cfg, hash, faults).trace :: c.FindOne? || c.HashPassword? || c.Create?
  {
  }

  /**
   * No overwrite: once an account with the configured email exists, running
   * the admin step again, with any password and any failures, leaves the
   * store, that account's password hash included, as it is.
   */
  lemma CreateAdminUserKeepsExisting(s: Store, cfg: AdminConfig, hash: string -> string, faults: set<Call>)
    requires HasAccount(s, cfg.email)
    ensures CreateAdminUser(s, cfg, hash, faults).store == s
    ensures CreateAdminUser(s, cfg, hash, faults).error.None? ==> ReadOnly(CreateAdminUser(s, cfg, hash, faults).trace)
  {
  }

  /** After a successful admin step the configured account exists, and a second step changes nothing. */
  lemma CreateAdminUserIdempotent(s: Store, cfg: AdminConfig, hash: string -> string)
    ensures var once := CreateAdminUser(s, cfg, hash, {});
      && once.error == None
      && HasAccount(once.store, cfg.email)
      && CreateAdminUser(once.store, cfg, hash, {}) == Effect(once.store, [FindOne(AdminUid, "email", cfg.email)], None)
  {
    var once := CreateAdminUser(s, cfg, hash, {});
    if !HasAccount(s, cfg.email) {
      var rec := AdminRecord(cfg, hash(cfg.password));
      WhereAppend(Coll(s, AdminUid), [rec], "email", cfg.email);
      assert Where([rec], "email", cfg.email) == [rec];
    }
  }

  /**
   * `setupDefaultPermissions`: look up the public role, then the
   * authenticated role. The permission list it builds is never applied, so
   * the step writes nothing; a failing lookup propagates.
   */
  function SetupDefaultPermissions(s: Store, faults: set<Call>): (r: Effect)
    ensures StopsAtFirstFault(r.trace, r.error, faults)
    ensures r.store == s && ReadOnly(r.trace)
    ensures r.trace <= [FindOne(RoleUid, "type", "public"), FindOne(RoleUid, "type", "authenticated")]
    ensures r.error.None? ==> r.trace == [FindOne(RoleUid, "type", "public"), FindOne(RoleUid, "type", "authenticated")]
  {
    var public := FindOne(RoleUid, "type", "public");
    var authenticated := FindOne(RoleUid, "type", "authenticated");
    if public in faults then Effect(s, [public], Some(public))
    else if authenticated in faults then Effect(s, [public, authenticated], Some(authenticated))
    else Effect(s, [public, authenticated], None)
  }
}

=== FILE: booking_serializer.dfy ===
/**
 * `BookingSerializer`: which submitted fields are kept, the date rules of
 * `validate`, and the pricing of `create`; plus the default `update` of a
 * model serializer, which assigns every validated field and saves.
 */
module BookingSerializer {
  import opened Wrappers
  import opened HostelModels
  import opened TextFields

  /**
   * A submitted booking body. `user`, `totalPrice` and `id` stand for
   * read-only fields a client may send; they are dropped.
   */
  datatype Payload = Payload(
    roomId: Option<int>,
    checkIn: Option<int>,
    checkOut: Option<int>,
    status: Option<string>,
    specialRequests: Option<string>,
    user: Option<nat>,
    totalPrice: Option<int>,
    id: Option<nat>)

  /** Validated data: the writable fields that were submitted. */
  datatype Data = Data(
    roomId: Option<int>,
    checkIn: Option<int>,
    checkOut: Option<int>,
    status: Option<BookingStatus>,
    specialRequests: Option<string>)

  datatype FieldError = RoomIdRequired | CheckInRequired | CheckOutRequired | InvalidStatus | RequestsHaveNul

  const AllFieldErrors: set<FieldError> := {RoomIdRequired, CheckInRequired, CheckOutRequired, InvalidStatus, RequestsHaveNul}

  /** Whether the body has the given field error. */
  predicate FieldFails(p: Payload, partial: bool, e: FieldError)
  {
    match e
    case RoomIdRequired => !partial && p.roomId.None?
    case CheckInRequired => !partial && p.checkIn.None?
    case CheckOutRequired => !partial && p.checkOut.None?
    case InvalidStatus => p.status.Some? && ParseBookingStatus(p.status.value).None?
    case RequestsHaveNul => p.specialRequests.Some? && HasNul(Trim(p.specialRequests.value))
  }

  /**
   * Field-level validation. `room_id` and both dates are required unless
   * the update is partial; `status` must be one of the choices;
   * `special_requests` is a text field, so it is stripped of surrounding
   * whitespace, may be blank, and must not hold the NUL character.
   */
  function ParseFields(p: Payload, partial: bool): (r: Result<Data, set<FieldError>>)
    ensures r.Success? <==>
      && (partial || (p.roomId.Some? && p.checkIn.Some? && p.checkOut.Some?))
      && (p.status.Some? ==> ParseBookingStatus(p.status.value).Some?)
      && (p.specialRequests.Some? ==> !HasNul(Trim(p.specialRequests.value)))
    ensures r.Failure? ==> r.error != {}
    ensures r.Failure? ==>
      && (RoomIdRequired in r.error <==> !partial && p.roomId.None?)
      && (CheckInRequired in r.error <==> !partial && p.checkIn.None?)
      && (CheckOutRequired in r.error <==> !partial && p.checkOut.None?)
      && (InvalidStatus in r.error <==> p.status.Some? && ParseBookingStatus(p.status.value).None?)
      && (RequestsHaveNul in r.error <==> p.specialRequests.Some? && HasNul(Trim(p.specialRequests.value)))
    ensures r.Success? ==>
      && r.value.roomId == p.roomId && r.value.checkIn == p.checkIn && r.value.checkOut == p.checkOut
      && r.value.specialRequests == (if p.specialRequests.Some? then Some(Trim(p.specialRequests.value)) else None)
      && (p.status.None? <==> r.value.status.None?)
      && (p.status.Some? ==> BookingStatusKey(r.value.status.value) == p.status.value)
  {
    var errors := set e | e in AllFieldErrors && FieldFails(p, partial, e);
    if errors != {} then Failure(errors)
    else
      assert forall e | e in AllFieldErrors :: e !in errors;
      var status := if p.status.Some? then ParseBookingStatus(p.status.value) else None;
      var requests := if p.specialRequests.Some? then Some(Trim(p.specialRequests.value)) else None;
      Success(Data(p.roomId, p.checkIn, p.checkOut, status, requests))
  }

  /** Read-only fields never reach the validated data. */
  lemma ReadOnlyFieldsIgnored(p: Payload, q: Payload, partial: bool)
    requires p.(user := q.user, totalPrice := q.totalPrice, id := q.id) == q
    ensures ParseFields(p, partial) == ParseFields(q, partial)
  {
    assert forall e :: FieldFails(p, partial, e) == FieldFails(q, partial, e);
    assert (set e | e in AllFieldErrors && FieldFails(p, partial, e))
        == (set e | e in AllFieldErrors && FieldFails(q, partial, e));
  }

  datatype DateError = CheckOutNotAfterCheckIn | CheckInInPast

  /**
   * `BookingSerializer.validate`, with `today` for `timezone.now().date()`:
   * when both dates are present, check-out must come after check-in (checked
   * first), and check-in must not be before today. The data is returned
   * unchanged.
   */
  function Validate(data: Data, today: int): (r: Result<Data, DateError>)
    ensures r.Success? ==> r.value == data
    ensures r.Success? <==>
      data.checkIn.None? || data.checkOut.None? || (data.checkIn.value < data.checkOut.value && data.checkIn.value >= today)
    ensures r == Failure(CheckOutNotAfterCheckIn) <==>
      data.checkIn.Some? && data.checkOut.Some? && data.checkIn.value >= data.checkOut.value
    ensures r == Failure(CheckInInPast) <==>
      data.checkIn.Some? && data.checkOut.Some? && data.checkIn.value < data.checkOut.value && data.checkIn.value < today
  {
    if data.checkIn.Some? && data.checkOut.Some? then
      if data.checkIn.value >= data.checkOut.value then Failure(CheckOutNotAfterCheckIn)
      else if data.checkIn.value < today then Failure(CheckInInPast)
      else Success(data)
    else Success(data)
  }

  /** The room with the given primary key, as `Room.objects.get(id=...)` finds it. */
  function FindRoom(rooms: seq<Room>, id: int): (r: Option<Room>)
    ensures r.Some? ==> r.value in rooms && r.value.id == id
    ensures r.None? ==> forall room | room in rooms :: room.id != id
  {
    if rooms == [] then None
    else if rooms[0].id == id then Some(rooms[0])
    else FindRoom(rooms[1..], id)
  }

  /**
   * The keyword arguments `create` hands to `ModelSerializer.create`: the
   * validated data with `room_id` popped, `total_price` set, and the `user`
   * the view passes to `save`. `room` is `None` while the foreign key is
   * unset.
   */
  datatype Draft = Draft(
    user: nat,
    room: Option<Room>,
    checkIn: int,
    checkOut: int,
    status: BookingStatus,
    totalPrice: Option<int>,
    specialRequests: string)

  /**
   * Why a create fails: the submitted room does not exist (`DoesNotExist`);
   * `Booking.save` reads the unset `self.room` to price a booking whose total
   * is zero (`RelatedObjectDoesNotExist`); or the insert of a booking with no
   * room breaks the non-null `room_id` column (`IntegrityError`).
   */
  datatype CreateError = RoomNotFound | RoomUnset | RoomNullOnInsert

  /**
   * `Booking.objects.create(**draft)`: build the instance and save it. With
   * no room, `save` fails, reading the room when the total is unset or zero
   * and inserting a null `room_id` otherwise.
   */
  function Persist(d: Draft, id: nat, now: int): (r: Result<Booking, CreateError>)
    ensures r.Failure? <==> d.room.None?
    ensures r.Failure? ==> r.error == if PriceSet(d.totalPrice) then RoomNullOnInsert else RoomUnset
    ensures r.Success? ==>
      var b := r.value;
      && b.id == id && b.createdAt == now && b.user == d.user && b.room == d.room.value.id
      && b.checkIn == d.checkIn && b.checkOut == d.checkOut
      && b.status == d.status && b.specialRequests == d.specialRequests
      && b.totalPrice == if PriceSet(d.totalPrice) then d.totalPrice else Some(d.room.value.pricePerNight * Nights(b))
  {
    if d.room.None? then
      if PriceSet(d.totalPrice) then Failure(RoomNullOnInsert) else Failure(RoomUnset)
    else
      var b := Booking(id, d.user, d.room.value.id, d.checkIn, d.checkOut, d.status, d.totalPrice, d.specialRequests, now);
      Success(Save(b, d.room.value.pricePerNight))
  }

  /**
   * The body of `BookingSerializer.create`, for data that passed field
   * validation of a full create, with `user` set by the view: pop `room_id`,
   * look the room up (a missing room raises `DoesNotExist`) and set the
   * total to the nightly price times the nights. The room found is only
   * used for its price: the draft carries no room.
   */
  function CreateDraft(data: Data, rooms: seq<Room>, user: nat): (r: Result<Draft, CreateError>)
    requires data.roomId.Some? && data.checkIn.Some? && data.checkOut.Some?
    ensures r.Failure? <==> FindRoom(rooms, data.roomId.value).None?
    ensures r.Failure? ==> r.error == RoomNotFound
    ensures r.Success? ==>
      var d := r.value;
      && d.room.None?
      && d.user == user
      && d.checkIn == data.checkIn.value && d.checkOut == data.checkOut.value
      && d.totalPrice == Some(FindRoom(rooms, data.roomId.value).value.pricePerNight * (d.checkOut - d.checkIn))
      && d.status == (if data.status.Some? then data.status.value else Pending)
      && d.specialRequests == (if data.specialRequests.Some? then data.specialRequests.value else "")
  {
    var found := FindRoom(rooms, data.roomId.value);
    if found.None? then Failure(RoomNotFound)
    else
      var nights := data.checkOut.value - data.checkIn.value;
      Success(Draft(
        user, None, data.checkIn.value, data.checkOut.value,
        if data.status.Some? then data.status.value else Pending,
        Some(found.value.pricePerNight * nights),
        if data.specialRequests.Some? then data.specialRequests.value else ""))
  }

  /**
   * `BookingSerializer.create` as written, followed by the model's `save`:
   * since the draft has no room, no booking is ever created. The error is
   * the missing room, or else the unset room read by `save` when the
   * computed total is zero, or else the null `room_id` on insert.
   */
  function Create(data: Data, rooms: seq<Room>, user: nat, id: nat, now: int): (r: Result<Booking, CreateError>)
    requires data.roomId.Some? && data.checkIn.Some? && data.checkOut.Some?
    ensures r.Failure?
    ensures r.error == RoomNotFound <==> FindRoom(rooms, data.roomId.value).None?
    ensures r.error == RoomUnset <==>
      FindRoom(rooms, data.roomId.value).Some?
      && FindRoom(rooms, data.roomId.value).value.pricePerNight * (data.checkOut.value - data.checkIn.value) == 0
    ensures r.error == RoomNullOnInsert <==>
      FindRoom(rooms, data.roomId.value).Some?
      && FindRoom(rooms, data.roomId.value).value.pricePerNight * (data.checkOut.value - data.checkIn.value) != 0
  {
    match CreateDraft(data, rooms, user)
    case Failure(e) => Failure(e)
    case Success(d) => Persist(d, id, now)
  }

  /**
   * `create` as evidently intended: the room that was looked up is passed
   * on (`room=room`), so the booking is saved on that room with the computed
   * total.
   */
  function CreateWithRoom(data: Data, rooms: seq<Room>, user: nat, id: nat, now: int): (r: Result<Booking, CreateError>)
    requires data.roomId.Some? && data.checkIn.Some? && data.checkOut.Some?
    ensures r.Failure? <==> FindRoom(rooms, data.roomId.value).None?
    ensures r.Failure? ==> r.error == RoomNotFound
    ensures r.Success? ==>
      var b := r.value;
      var room := FindRoom(rooms, data.roomId.value).value;
      && b.id == id && b.user == user && b.room == room.id && b.createdAt == now
      && b.checkIn == data.checkIn.value && b.checkOut == data.checkOut.value
      && b.totalPrice == Some(room.pricePerNight * (b.checkOut - b.checkIn))
      && b.status == (if data.status.Some? then data.status.value else Pending)
      && b.specialRequests == (if data.specialRequests.Some? then data.specialRequests.value else "")
  {
    match CreateDraft(data, rooms, user)
    case Failure(e) => Failure(e)
    case Success(d) => Persist(d.(room := FindRoom(rooms, data.roomId.value)), id, now)
  }

  /**
   * The two creates agree up to the missing room: where the intended one
   * saves a booking, the one as written fails on that room.
   */
  lemma CreateFailsWhereIntendedSaves(data: Data, rooms: seq<Room>, user: nat, id: nat, now: int)
    requires data.roomId.Some? && data.checkIn.Some? && data.checkOut.Some?
    ensures CreateWithRoom(data, rooms, user, id, now).Success? <==>
      Create(data, rooms, user, id, now).error in {RoomUnset, RoomNullOnInsert}
  {
  }

  /**
   * The total `create` computes for data that passed `validate` covers at
   * least one night: with a non-negative price it is at least one night's
   * price.
   */
  lemma DraftTotalCoversOneNight(data: Data, today: int, rooms: seq<Room>, user: nat)
    requires data.roomId.Some? && data.checkIn.Some? && data.checkOut.Some?
    requires Validate(data, today).Success?
    requires CreateDraft(data, rooms, user).Success?
    ensures var d := CreateDraft(data, rooms, user).value;
      var price := FindRoom(rooms, data.roomId.value).value.pricePerNight;
      && d.checkOut - d.checkIn >= 1
      && (price >= 0 ==> d.totalPrice.value >= price)
  {
    var d := CreateDraft(data, rooms, user).value;
    var price := FindRoom(rooms, data.roomId.value).value.pricePerNight;
    if price >= 0 {
      assert price * (d.checkOut - d.checkIn) >= price * 1 by {
        assert d.checkOut - d.checkIn >= 1;
      }
    }
  }

  datatype UpdateError = UnknownRoom

  /**
   * The model serializer's default `update`: every validated field is
   * assigned (`room_id` re-points the booking at that room), then the
   * instance is saved. A room id with no room fails on save; the total is
   * recomputed only when it is unset or zero.
   */
  function Update(b: Booking, data: Data, rooms: seq<Room>): (r: Result<Booking, UpdateError>)
    ensures r.Failure? <==> FindRoom(rooms, if data.roomId.Some? then data.roomId.value else b.room).None?
    ensures r.Success? ==>
      && r.value.id == b.id && r.value.user == b.user && r.value.createdAt == b.createdAt
      && r.value.checkIn == (if data.checkIn.Some? then data.checkIn.value else b.checkIn)
      && r.value.checkOut == (if data.checkOut.Some? then data.checkOut.value else b.checkOut)
      && r.value.room == (if data.roomId.Some? then data.roomId.value else b.room)
      && r.value.status == (if data.status.Some? then data.status.value else b.status)
      && r.value.specialRequests == (if data.specialRequests.Some? then data.specialRequests.value else b.specialRequests)
      && r.value.totalPrice.Some?
      && (PriceSet(b.totalPrice) ==> r.value.totalPrice == b.totalPrice)
      && (!PriceSet(b.totalPrice) ==>
            r.value.totalPrice.value
            == FindRoom(rooms, r.value.room).value.pricePerNight * (r.value.checkOut - r.value.checkIn))
  {
    var roomId := if data.roomId.Some? then data.roomId.value else b.room;
    var found := FindRoom(rooms, roomId);
    if found.None? then Failure(UnknownRoom)
    else
      var checkIn := if data.checkIn.Some? then data.checkIn.value else b.checkIn;
      var checkOut := if data.checkOut.Some? then data.checkOut.value else b.checkOut;
      var status := if data.status.Some? then data.status.value else b.status;
      var requests := if data.specialRequests.Some? then data.specialRequests.value else b.specialRequests;
      var changed := b.(room := found.value.id, checkIn := checkIn, checkOut := checkOut,
                         status := status, specialRequests := requests);
      Success(Save(changed, found.value.pricePerNight))
  }

  /** An update that submits nothing leaves a priced booking on an existing room as it was. */
  lemma EmptyUpdateKeepsBooking(b: Booking, rooms: seq<Room>)
    requires PriceSet(b.totalPrice)
    requires FindRoom(rooms, b.room).Some?
    ensures Update(b, Data(None, None, None, None, None), rooms) == Success(b)
  {
  }
}

=== FILE: cms_store.dfy ===
/**
 * The store the CMS initialisation script reaches through Strapi, reduced to
 * what the script observes: named collections of records, and the calls the
 * script issues against the framework. Which calls throw is decided by the
 * environment and passed in as a set of faulty calls.
 */
module CmsStore {
  import opened Wrappers

  /** A stored attribute value. */
  datatype Field = Text(text: string) | Number(n: int) | Flag(b: bool)

  /** A record is a finite map from attribute name to value. */
  type Record = map<string, Field>

  /** A store maps a content-type uid to the records of that collection. */
  type Store = map<string, seq<Record>>

  /** The records of collection `c`; a collection never written to is empty. */
  function Coll(s: Store, c: string): (r: seq<Record>)
  {
    if c in s then s[c] else []
  }

  /** `create` in collection `c`: the record is appended, nothing else changes. */
  function Insert(s: Store, c: string, r: Record): (t: Store)
    ensures Coll(t, c) == Coll(s, c) + [r]
    ensures t - {c} == s - {c}
  {
    s[c := Coll(s, c) + [r]]
  }

  /** The exact-match filter `{ field: value }` on a text attribute. */
  predicate Matches(r: Record, field: string, value: string)
  {
    field in r && r[field] == Text(value)
  }

  /** The records of `xs` matching `{ field: value }`, in stored order. */
  function Where(xs: seq<Record>, field: string, value: string): (ys: seq<Record>)
    ensures |ys| <= |xs|
    ensures forall y :: y in ys ==> y in xs && Matches(y, field, value)
    ensures forall x :: x in xs && Matches(x, field, value) ==> x in ys
  {
    if xs == [] then []
    else (if Matches(xs[0], field, value) then [xs[0]] else []) + Where(xs[1..], field, value)
  }

  /**
   * The lookup keeps every copy of a matching record, as often as it is
   * stored, and no copy of any other record.
   */
  lemma {:induction false} WhereCounts(xs: seq<Record>, field: string, value: string, x: Record)
    ensures multiset(Where(xs, field, value))[x] == if Matches(x, field, value) then multiset(xs)[x] else 0
    decreases |xs|
  {
    if xs != [] {
      assert xs == [xs[0]] + xs[1..];
      WhereCounts(xs[1..], field, value, x);
    }
  }

  lemma {:induction false} WhereAppend(xs: seq<Record>, ys: seq<Record>, field: string, value: string)
    ensures Where(xs + ys, field, value) == Where(xs, field, value) + Where(ys, field, value)
  {
    if xs == [] {
      assert xs + ys == ys;
    } else {
      assert (xs + ys)[0] == xs[0];
      assert (xs + ys)[1..] == xs[1..] + ys;
      WhereAppend(xs[1..], ys, field, value);
    }
  }

  /** Extending a collection never loses matches. */
  lemma WhereGrows(xs: seq<Record>, ys: seq<Record>, field: string, value: string)
    requires xs <= ys
    ensures |Where(xs, field, value)| <= |Where(ys, field, value)|
  {
    assert ys == xs + ys[|xs|..];
    WhereAppend(xs, ys[|xs|..], field, value);
  }

  /** A collection outside the changed set reads the same in both stores. */
  lemma CollOutside(s: Store, t: Store, changed: set<string>, c: string)
    requires s - changed == t - changed
    requires c !in changed
    ensures Coll(s, c) == Coll(t, c)
  {
    assert c in s <==> c in s - changed;
    assert c in t <==> c in t - changed;
    if c in s {
      assert s[c] == (s - changed)[c];
      assert t[c] == (t - changed)[c];
    }
  }

  /** A step confined to some collections is confined to any larger set of them. */
  lemma FrameGrow(s: Store, t: Store, a: set<string>, b: set<string>)
    requires t - a == s - a
    requires a <= b
    ensures t - b == s - b
  {
    assert t - b == (t - a) - b;
    assert s - b == (s - a) - b;
  }

  /** Two steps that each change one collection together change at most those two. */
  lemma FrameCompose(s: Store, t: Store, u: Store, a: string, b: string)
    requires t - {a} == s - {a}
    requires u - {b} == t - {b}
    ensures u - {a, b} == s - {a, b}
  {
    assert u - {a, b} == (u - {b}) - {a};
    assert s - {a, b} == (s - {a}) - {b};
    assert t - {a, b} == (t - {a}) - {b} == (t - {b}) - {a};
  }

  /** One call the script makes into the framework. */
  datatype Call =
    | LoadApp                                                  // strapi(...).load()
    | Ping                                                     // knex.raw('SELECT 1')
    | FindOne(collection: string, field: string, value: string) // query(uid).findOne({ where })
    | FindMany(collection: string, field: string, value: string) // entityService.findMany(uid, { filters })
    | Create(collection: string, record: Record)               // create(uid, { data })
    | HashPassword(plain: string)                              // users-permissions hashPassword
    | Count(collection: string)                                // query(uid).count()
    | Destroy                                                  // strapiInstance.destroy()

  /** The store after the successful `Create` calls of `trace`, applied in order. */
  function Replay(s: Store, trace: seq<Call>, faults: set<Call>): (t: Store)
    decreases |trace|
  {
    if trace == [] then s
    else if trace[0].Create? && trace[0] !in faults then
      Replay(Insert(s, trace[0].collection, trace[0].record), trace[1..], faults)
    else Replay(s, trace[1..], faults)
  }

  lemma {:induction false} ReplayConcat(s: Store, a: seq<Call>, b: seq<Call>, faults: set<Call>)
    ensures Replay(s, a + b, faults) == Replay(Replay(s, a, faults), b, faults)
    decreases |a|
  {
    if a == [] {
      assert a + b == b;
    } else {
      assert (a + b)[0] == a[0];
      assert (a + b)[1..] == a[1..] + b;
      if a[0].Create? && a[0] !in faults {
        ReplayConcat(Insert(s, a[0].collection, a[0].record), a[1..], b, faults);
      } else {
        ReplayConcat(s, a[1..], b, faults);
      }
    }
  }

  /** No call of `trace` creates anything. */
  ghost predicate ReadOnly(trace: seq<Call>)
  {
    forall c | c in trace :: !c.Create?
  }

  /** Calls other than successful creates leave the store as it is. */
  lemma {:induction false} ReplayWithoutCreates(s: Store, trace: seq<Call>, faults: set<Call>)
    requires forall c | c in trace :: !c.Create? || c in faults
    ensures Replay(s, trace, faults) == s
    decreases |trace|
  {
    if trace != [] {
      assert trace[0] in trace;
      ReplayWithoutCreates(s, trace[1..], faults);
    }
  }

  /** No call of `trace` throws. */
  ghost predicate Clean(trace: seq<Call>, faults: set<Call>)
  {
    forall c | c in trace :: c !in faults
  }

  /**
   * A step without internal error handling: it issues calls until the first
   * one that throws, and reports that call as its error; with no error, no
   * call threw.
   */
  ghost predicate StopsAtFirstFault(trace: seq<Call>, error: Option<Call>, faults: set<Call>)
  {
    match error
    case None => Clean(trace, faults)
    case Some(c) =>
      && |trace| > 0
      && trace[|trace| - 1] == c
      && c in faults
      && Clean(trace[..|trace| - 1], faults)
  }

  /** Calls that did not throw, followed by a step, still stop at that step's first fault. */
  lemma StopsAfterClean(pre: seq<Call>, trace: seq<Call>, error: Option<Call>, faults: set<Call>)
    requires Clean(pre, faults)
    requires StopsAtFirstFault(trace, error, faults)
    ensures StopsAtFirstFault(pre + trace, error, faults)
  {
    if error.Some? {
      assert (pre + trace)[..|pre + trace| - 1] == pre + trace[..|trace| - 1];
    }
  }

  /** The result of one step of the script: the store, the calls issued, and the call that threw, if any. */
  datatype Effect = Effect(store: Store, trace: seq<Call>, error: Option<Call>)
}

=== FILE: hostel_models.dfy ===
/**
 * The Django models of the hostel backend: rooms and bookings, their
 * choice lists, defaults and listing order, and the price fallback of
 * `Booking.save`. Dates are day numbers; money is an integer number of
 * cents (both decimal fields have two decimal places).
 */
module HostelModels {
  import opened Wrappers
  import opened Ordering

  datatype RoomType = Single | Double | Triple | Dorm
  datatype RoomStatus = Available | Occupied | Maintenance | Reserved
  datatype BookingStatus = Pending | Confirmed | Cancelled | Completed

  /** The stored key of each choice. */
  function RoomTypeKey(t: RoomType): (key: string)
  {
    match t
    case Single => "single"
    case Double => "double"
    case Triple => "triple"
    case Dorm => "dorm"
  }

  function RoomStatusKey(t: RoomStatus): (key: string)
  {
    match t
    case Available => "available"
    case Occupied => "occupied"
    case Maintenance => "maintenance"
    case Reserved => "reserved"
  }

  function BookingStatusKey(t: BookingStatus): (key: string)
  {
    match t
    case Pending => "pending"
    case Confirmed => "confirmed"
    case Cancelled => "cancelled"
    case Completed => "completed"
  }

  /** The choice a submitted key selects; `None` for a key outside the choice list. */
  function ParseRoomType(key: string): (r: Option<RoomType>)
    ensures r.Some? ==> RoomTypeKey(r.value) == key
    ensures forall t :: RoomTypeKey(t) == key ==> r == Some(t)
  {
    if key == "single" then Some(Single)
    else if key == "double" then Some(Double)
    else if key == "triple" then Some(Triple)
    else if key == "dorm" then Some(Dorm)
    else None
  }

  function ParseRoomStatus(key: string): (r: Option<RoomStatus>)
    ensures r.Some? ==> RoomStatusKey(r.value) == key
    ensures forall t :: RoomStatusKey(t) == key ==> r == Some(t)
  {
    if key == "available" then Some(Available)
    else if key == "occupied" then Some(Occupied)
    else if key == "maintenance" then Some(Maintenance)
    else if key == "reserved" then Some(Reserved)
    else None
  }

  function ParseBookingStatus(key: string): (r: Option<BookingStatus>)
    ensures r.Some? ==> BookingStatusKey(r.value) == key
    ensures forall t :: BookingStatusKey(t) == key ==> r == Some(t)
  {
    if key == "pending" then Some(Pending)
    else if key == "confirmed" then Some(Confirmed)
    else if key == "cancelled" then Some(Cancelled)
    else if key == "completed" then Some(Completed)
    else None
  }

  /** `CharField(max_length=10)` on `Room.number`. */
  const NumberMaxLength := 10

  /** `DecimalField(max_digits=10, decimal_places=2)`: at most 8 digits before the point. */
  const PriceBound := 10_000_000_000

  predicate PriceFits(cents: int)
  {
    -PriceBound < cents < PriceBound
  }

  datatype Room = Room(
    id: nat,
    number: string,
    kind: RoomType,
    capacity: nat,
    pricePerNight: int,
    status: RoomStatus,
    description: string)

  /** A Room as the model builds it: `status` defaults to available. */
  function NewRoom(id: nat, number: string, kind: RoomType, capacity: nat, pricePerNight: int,
                   status: Option<RoomStatus>, description: string): (r: Room)
    ensures status.None? ==> r.status == Available
    ensures status.Some? ==> r.status == status.value
  {
    Room(id, number, kind, capacity, pricePerNight, if status.Some? then status.value else Available, description)
  }

  /** The column constraints of the rooms table: short unique numbers, unique ids, prices that fit. */
  ghost predicate ValidRooms(rooms: seq<Room>)
  {
    && (forall i | 0 <= i < |rooms| :: |rooms[i].number| <= NumberMaxLength && PriceFits(rooms[i].pricePerNight))
    && (forall i, j | 0 <= i < j < |rooms| :: rooms[i].number != rooms[j].number && rooms[i].id != rooms[j].id)
  }

  /**
   * A Booking instance; `totalPrice` is `None` until it is set, and stays so
   * only on an instance that was never saved.
   */
  datatype Booking = Booking(
    id: nat,
    user: nat,
    room: nat,
    checkIn: int,
    checkOut: int,
    status: BookingStatus,
    totalPrice: Option<int>,
    specialRequests: string,
    createdAt: int)

  /** `(check_out_date - check_in_date).days` */
  function Nights(b: Booking): (n: int)
  {
    b.checkOut - b.checkIn
  }

  /** Python truthiness of `total_price`: None and zero are false. */
  predicate PriceSet(p: Option<int>)
  {
    p.Some? && p.value != 0
  }

  /**
   * `Booking.save`: when `total_price` is unset or zero it becomes the room's
   * nightly price times the number of nights, with no check on the dates;
   * any other value is kept. `pricePerNight` is the price of `self.room`.
   */
  function Save(b: Booking, pricePerNight: int): (r: Booking)
    ensures r.totalPrice.Some?
    ensures r == b.(totalPrice := r.totalPrice)
    ensures PriceSet(b.totalPrice) ==> r == b
    ensures !PriceSet(b.totalPrice) ==> r.totalPrice.value == pricePerNight * Nights(b)
  {
    if PriceSet(b.totalPrice) then b
    else b.(totalPrice := Some(pricePerNight * Nights(b)))
  }

  /** Saving again changes nothing, whatever the first save did. */
  lemma SaveIdempotent(b: Booking, pricePerNight: int)
    ensures Save(Save(b, pricePerNight), pricePerNight) == Save(b, pricePerNight)
  {
  }

  /** `save` does no date validation: with the dates reversed and a positive price, the fallback total is negative. */
  lemma SaveAcceptsReversedDates(b: Booking, pricePerNight: int)
    requires !PriceSet(b.totalPrice)
    requires b.checkOut < b.checkIn && pricePerNight > 0
    ensures Save(b, pricePerNight).totalPrice.value < 0
  {
    var nights := Nights(b);
    assert pricePerNight * nights <= pricePerNight * -1 by {
      assert nights <= -1;
    }
  }

  /** `Meta.ordering = ['number']`: ascending order of the number string, character by character. */
  predicate NumberBefore(a: string, b: string)
  {
    if a == [] then true
    else if b == [] then false
    else if a[0] != b[0] then a[0] < b[0]
    else NumberBefore(a[1..], b[1..])
  }

  predicate RoomBefore(a: Room, b: Room)
  {
    NumberBefore(a.number, b.number)
  }

  /** `Meta.ordering = ['-created_at']`: newest first. */
  predicate BookingBefore(a: Booking, b: Booking)
  {
    a.createdAt >= b.createdAt
  }

  lemma {:induction false} NumberBeforeTotal(a: string, b: string)
    ensures NumberBefore(a, b) || NumberBefore(b, a)
    decreases |a|
  {
    if a != [] && b != [] && a[0] == b[0] {
      NumberBeforeTotal(a[1..], b[1..]);
    }
  }

  lemma {:induction false} NumberBeforeTransitive(a: string, b: string, c: string)
    requires NumberBefore(a, b) && NumberBefore(b, c)
    ensures NumberBefore(a, c)
    decreases |a|
  {
    if a != [] && b != [] && c != [] && a[0] == b[0] && b[0] == c[0] {
      NumberBeforeTransitive(a[1..], b[1..], c[1..]);
    }
  }

  /** Both listing orders are total preorders, so listing by them is well defined up to ties. */
  lemma ListingOrdersArePreorders()
    ensures Total(RoomBefore) && Transitive(RoomBefore)
    ensures Total(BookingBefore) && Transitive(BookingBefore)
  {
    forall a: Room, b: Room ensures RoomBefore(a, b) || RoomBefore(b, a) {
      NumberBeforeTotal(a.number, b.number);
    }
    forall a: Room, b: Room, c: Room | RoomBefore(a, b) && RoomBefore(b, c) ensures RoomBefore(a, c) {
      NumberBeforeTransitive(a.number, b.number, c.number);
    }
  }

  /** Rooms as the room list returns them. */
  function OrderRooms(rooms: seq<Room>): (r: seq<Room>)
    ensures multiset(r) == multiset(rooms)
    ensures forall i, j | 0 <= i < j < |r| :: NumberBefore(r[i].number, r[j].number)
  {
    ListingOrdersArePreorders();
    SortBy(rooms, RoomBefore)
  }

  /** Bookings as the booking list returns them. */
  function OrderBookings(bookings: seq<Booking>): (r: seq<Booking>)
    ensures multiset(r) == multiset(bookings)
    ensures forall i, j | 0 <= i < j < |r| :: r[i].createdAt >= r[j].createdAt
  {
    ListingOrdersArePreorders();
    SortBy(bookings, BookingBefore)
  }
}

=== FILE: hostel_views.dfy ===
/**
 * The REST views of the hostel backend. Every view requires an
 * authenticated user, and the booking views see only the requesting user's
 * bookings. A booking POST never stores anything, because `create` drops
 * the room; `CreateBookingIntended` is the POST with the room passed on.
 */
module HostelViews {
  import opened Wrappers
  import opened HostelModels
  import opened BookingSerializer
  import opened TextFields

  /** The requesting user; `None` for an anonymous request. */
  datatype Request = Request(user: Option<nat>)

  datatype ApiError =
    | NotAuthenticated
    | NotFound
    | FieldsInvalid(fields: set<FieldError>)
    | DatesInvalid(dates: DateError)
    | RoomFieldsInvalid(roomFields: set<RoomField>)
    | ServerError

  /** The two tables the views read and write. */
  datatype Db = Db(rooms: seq<Room>, bookings: seq<Booking>)

  /** The bookings table's own constraints: unique ids, and every saved booking has a total. */
  ghost predicate ValidBookings(bookings: seq<Booking>)
  {
    && (forall i | 0 <= i < |bookings| :: bookings[i].totalPrice.Some?)
    && (forall i, j | 0 <= i < j < |bookings| :: bookings[i].id != bookings[j].id)
  }

  ghost predicate ValidDb(db: Db)
  {
    ValidRooms(db.rooms) && ValidBookings(db.bookings)
  }

  /** `Booking.objects.filter(user=request.user)`, in table order. */
  function OwnBookings(bookings: seq<Booking>, user: nat): (r: seq<Booking>)
    ensures forall b :: b in r <==> b in bookings && b.user == user
  {
    if bookings == [] then []
    else (if bookings[0].user == user then [bookings[0]] else []) + OwnBookings(bookings[1..], user)
  }

  /** The filter keeps every copy of the user's bookings and no copy of anyone else's. */
  lemma {:induction false} OwnBookingsExact(bookings: seq<Booking>, user: nat, b: Booking)
    ensures multiset(OwnBookings(bookings, user))[b] == if b.user == user then multiset(bookings)[b] else 0
    decreases |bookings|
  {
    if bookings != [] {
      assert bookings == [bookings[0]] + bookings[1..];
      OwnBookingsExact(bookings[1..], user, b);
    }
  }

  /** `BookingListView.get`: the user's bookings, newest first. */
  function ListBookings(db: Db, req: Request): (r: Result<seq<Booking>, ApiError>)
    ensures req.user.None? <==> r == Failure(NotAuthenticated)
    ensures req.user.Some? ==> r.Success?
    ensures r.Success? ==>
      && (forall b :: b in r.value <==> b in db.bookings && b.user == req.user.value)
      && multiset(r.value) == multiset(OwnBookings(db.bookings, req.user.value))
      && (forall i, j | 0 <= i < j < |r.value| :: r.value[i].createdAt >= r.value[j].createdAt)
  {
    if req.user.None? then Failure(NotAuthenticated)
    else
      var listed := OrderBookings(OwnBookings(db.bookings, req.user.value));
      assert forall b :: b in listed <==> b in multiset(listed);
      Success(listed)
  }

  /**
   * The booking with primary key `id` among `bookings`. It is kept apart
   * from `FindRoom`: each table has its own key type and its own lookup
   * (`Room.objects.get` on every room, `get_object` on the user's own
   * bookings), and a shared version would need a key-function parameter in
   * every contract that mentions it.
   */
  function FindBooking(bookings: seq<Booking>, id: nat): (r: Option<Booking>)
    ensures r.Some? ==> r.value in bookings && r.value.id == id
    ensures r.None? ==> forall b | b in bookings :: b.id != id
  {
    if bookings == [] then None
    else if bookings[0].id == id then Some(bookings[0])
    else FindBooking(bookings[1..], id)
  }

  /** `get_object` of `BookingDetailView`: the lookup runs on the user's own bookings only. */
  function OwnBooking(db: Db, req: Request, id: nat): (r: Result<Booking, ApiError>)
    ensures req.user.None? <==> r == Failure(NotAuthenticated)
    ensures r.Success? ==> r.value in db.bookings && r.value.id == id && r.value.user == req.user.value
    ensures r == Failure(NotFound) <==>
      req.user.Some? && forall b | b in db.bookings :: !(b.id == id && b.user == req.user.value)
  {
    if req.user.None? then Failure(NotAuthenticated)
    else
      var found := FindBooking(OwnBookings(db.bookings, req.user.value), id);
      if found.None? then Failure(NotFound) else Success(found.value)
  }

  /**
   * `BookingDetailView` GET: the user's own booking with that id; not found
   * exactly when the user owns no booking with that id.
   */
  function RetrieveBooking(db: Db, req: Request, id: nat): (r: Result<Booking, ApiError>)
    ensures r.Success? ==> req.user.Some? && r.value in db.bookings && r.value.user == req.user.value && r.value.id == id
    ensures r.Success? || r == Failure(NotAuthenticated) || r == Failure(NotFound)
    ensures req.user.None? <==> r == Failure(NotAuthenticated)
    ensures r == Failure(NotFound) <==>
      req.user.Some? && forall b | b in db.bookings :: !(b.id == id && b.user == req.user.value)
  {
    OwnBooking(db, req, id)
  }

  /** `BookingDetailView` DELETE: the booking with that id goes, every other booking stays. */
  function DestroyBooking(db: Db, req: Request, id: nat): (r: Result<Db, ApiError>)
    ensures r.Success? ==> OwnBooking(db, req, id).Success?
    ensures r.Failure? ==> OwnBooking(db, req, id).Failure? && r.error == OwnBooking(db, req, id).error
    ensures r.Success? ==>
      && r.value.rooms == db.rooms
      && r.value.bookings == WithoutId(db.bookings, id)
      && forall b :: b in r.value.bookings <==> b in db.bookings && b.id != id
  {
    var target := OwnBooking(db, req, id);
    if target.Failure? then Failure(target.error)
    else Success(db.(bookings := WithoutId(db.bookings, id)))
  }

  function WithoutId(bookings: seq<Booking>, id: nat): (r: seq<Booking>)
    ensures forall b :: b in r <==> b in bookings && b.id != id
  {
    if bookings == [] then []
    else (if bookings[0].id == id then [] else [bookings[0]]) + WithoutId(bookings[1..], id)
  }

  /** `bookings` with the booking of id `b.id` replaced by `b`. */
  function ReplaceById(bookings: seq<Booking>, b: Booking): (r: seq<Booking>)
    ensures |r| == |bookings|
    ensures forall i | 0 <= i < |r| :: r[i] == if bookings[i].id == b.id then b else bookings[i]
  {
    if bookings == [] then []
    else [if bookings[0].id == b.id then b else bookings[0]] + ReplaceById(bookings[1..], b)
  }

  /**
   * `BookingDetailView` PUT (`partial` false) and PATCH (`partial` true):
   * find the user's booking, validate the fields and the dates submitted,
   * assign them and save.
   */
  function UpdateBooking(db: Db, req: Request, id: nat, p: Payload, partial: bool, today: int): (r: Result<(Db, Booking), ApiError>)
    ensures OwnBooking(db, req, id).Failure? ==> r == Failure(OwnBooking(db, req, id).error)
    ensures OwnBooking(db, req, id).Success? && ParseFields(p, partial).Failure? ==>
      r == Failure(FieldsInvalid(ParseFields(p, partial).error))
    ensures OwnBooking(db, req, id).Success? && ParseFields(p, partial).Success? ==>
      var dates := Validate(ParseFields(p, partial).value, today);
      && (dates.Failure? ==> r == Failure(DatesInvalid(dates.error)))
      && (dates.Success? ==>
            var updated := Update(OwnBooking(db, req, id).value, dates.value, db.rooms);
            && (updated.Failure? ==> r == Failure(ServerError))
            && (updated.Success? ==> r.Success? && r.value.1 == updated.value))
    ensures r.Success? ==>
      var (db', b) := r.value;
      && OwnBooking(db, req, id).Success?
      && b.id == id && b.user == req.user.value && b.totalPrice.Some?
      && db'.rooms == db.rooms
      && db'.bookings == ReplaceById(db.bookings, b)
  {
    var target := OwnBooking(db, req, id);
    if target.Failure? then Failure(target.error)
    else
      var fields := ParseFields(p, partial);
      if fields.Failure? then Failure(FieldsInvalid(fields.error))
      else
        var dates := Validate(fields.value, today);
        if dates.Failure? then Failure(DatesInvalid(dates.error))
        else
          var updated := Update(target.value, dates.value, db.rooms);
          if updated.Failure? then Failure(ServerError)
          else Success((db.(bookings := ReplaceById(db.bookings, updated.value)), updated.value))
  }

  /**
   * A booking id larger than every existing one, as the table's id sequence
   * hands out; each table has its own sequence, hence the separate `FreshRoomId`.
   */
  function FreshId(bookings: seq<Booking>): (r: nat)
    ensures forall b | b in bookings :: b.id < r
  {
    if bookings == [] then 1
    else
      var rest := FreshId(bookings[1..]);
      assert forall b | b in bookings :: b == bookings[0] || b in bookings[1..];
      if bookings[0].id < rest then rest else bookings[0].id + 1
  }

  /**
   * `BookingListView` POST as written: validate the fields of a full create
   * and the dates, then `perform_create` saves through `create`, which
   * fails on every input (an unhandled exception, so a server error). The
   * booking table is never extended.
   */
  function CreateBooking(db: Db, req: Request, p: Payload, today: int, now: int): (r: Result<(Db, Booking), ApiError>)
    ensures r.Failure?
    ensures req.user.None? ==> r == Failure(NotAuthenticated)
    ensures req.user.Some? && ParseFields(p, false).Failure? ==> r == Failure(FieldsInvalid(ParseFields(p, false).error))
    ensures req.user.Some? && ParseFields(p, false).Success? ==>
      r == if Validate(ParseFields(p, false).value, today).Failure?
           then Failure(DatesInvalid(Validate(ParseFields(p, false).value, today).error))
           else Failure(ServerError)
  {
    if req.user.None? then Failure(NotAuthenticated)
    else
      var fields := ParseFields(p, false);
      if fields.Failure? then Failure(FieldsInvalid(fields.error))
      else
        var dates := Validate(fields.value, today);
        if dates.Failure? then Failure(DatesInvalid(dates.error))
        else
          match Create(dates.value, db.rooms, req.user.value, FreshId(db.bookings), now)
          case Failure(_) => Failure(ServerError)
          case Success(b) => Success((db.(bookings := db.bookings + [b]), b))
  }

  /**
   * The POST as evidently intended, saving through `CreateWithRoom`:
   * `perform_create` saves with `user=request.user`, so the owner is the
   * requester whatever the body says, and the booking is appended under a
   * fresh id. A missing room raises.
   */
  function CreateBookingIntended(db: Db, req: Request, p: Payload, today: int, now: int): (r: Result<(Db, Booking), ApiError>)
    ensures req.user.None? ==> r == Failure(NotAuthenticated)
    ensures r.Success? ==>
      var (db', b) := r.value;
      && b.user == req.user.value
      && b.createdAt == now
      && db'.rooms == db.rooms
      && db'.bookings == db.bookings + [b]
      && (forall old_ | old_ in db.bookings :: old_.id != b.id)
      && b.checkIn >= today && b.checkOut > b.checkIn
    ensures req.user.Some? && ParseFields(p, false).Success? && Validate(ParseFields(p, false).value, today).Success? ==>
      (r.Success? <==> FindRoom(db.rooms, p.roomId.value).Some?)
  {
    if req.user.None? then Failure(NotAuthenticated)
    else
      var fields := ParseFields(p, false);
      if fields.Failure? then Failure(FieldsInvalid(fields.error))
      else
        var dates := Validate(fields.value, today);
        if dates.Failure? then Failure(DatesInvalid(dates.error))
        else
          var created := CreateWithRoom(dates.value, db.rooms, req.user.value, FreshId(db.bookings), now);
          if created.Failure? then Failure(ServerError)
          else Success((db.(bookings := db.bookings + [created.value]), created.value))
  }

  /**
   * Wherever the intended POST stores a booking, the POST as written
   * answers with a server error and stores nothing.
   */
  lemma CreateBookingFailsWhereIntendedStores(db: Db, req: Request, p: Payload, today: int, now: int)
    requires CreateBookingIntended(db, req, p, today, now).Success?
    ensures CreateBooking(db, req, p, today, now) == Failure(ServerError)
  {
    var data := Validate(ParseFields(p, false).value, today).value;
    CreateFailsWhereIntendedSaves(data, db.rooms, req.user.value, FreshId(db.bookings), now);
  }

  /**
   * A well-formed booking of an existing room, on dates from today: the
   * POST as written fails with a server error, the intended POST stores it.
   */
  lemma CreateBookingDropsRoom()
    ensures var room := Room(1, "101", Double, 2, 5000, Available, "");
      var db := Db([room], []);
      var body := Payload(Some(1), Some(100), Some(103), None, None, None, None, None);
      && CreateBooking(db, Request(Some(3)), body, 100, 90) == Failure(ServerError)
      && CreateBookingIntended(db, Request(Some(3)), body, 100, 90).Success?
      && |CreateBookingIntended(db, Request(Some(3)), body, 100, 90).value.0.bookings| == 1
      && CreateBookingIntended(db, Request(Some(3)), body, 100, 90).value.1.totalPrice == Some(15000)
  {
    var room := Room(1, "101", Double, 2, 5000, Available, "");
    assert FindRoom([room], 1) == Some(room);
  }

  /** A submitted room body; `id` and the timestamps are read-only and absent here. */
  datatype RoomPayload = RoomPayload(
    number: Option<string>,
    kind: Option<string>,
    capacity: Option<int>,
    pricePerNight: Option<int>,
    status: Option<string>,
    description: Option<string>)

  /** The room fields a submission can get wrong. */
  datatype RoomField = NumberField | TypeField | CapacityField | PriceField | StatusField | DescriptionField

  const AllRoomFields: set<RoomField> := {NumberField, TypeField, CapacityField, PriceField, StatusField, DescriptionField}

  predicate NumberTaken(rooms: seq<Room>, number: string)
  {
    exists i | 0 <= i < |rooms| :: rooms[i].number == number
  }

  /** Whether the body gets the given room field wrong. */
  predicate RoomFieldFails(rooms: seq<Room>, p: RoomPayload, f: RoomField)
  {
    match f
    case NumberField =>
      p.number.None? ||
      var number := Trim(p.number.value);
      number == "" || HasNul(number) || |number| > NumberMaxLength || NumberTaken(rooms, number)
    case TypeField => p.kind.None? || ParseRoomType(p.kind.value).None?
    case CapacityField => p.capacity.None? || p.capacity.value < 0
    case PriceField => p.pricePerNight.None? || !PriceFits(p.pricePerNight.value)
    case StatusField => p.status.Some? && ParseRoomStatus(p.status.value).None?
    case DescriptionField => p.description.Some? && HasNul(Trim(p.description.value))
  }

  /**
   * Field validation of `RoomSerializer`: `number` is required, is stripped
   * of surrounding whitespace, and must then be non-blank, free of NUL, at
   * most 10 characters and unused; `type` is a required choice; `capacity`
   * is a required non-negative integer; `price_per_night` is required and
   * fits the decimal column; `status`, when given, is a choice; a given
   * `description` must be free of NUL once stripped.
   */
  function RoomErrors(rooms: seq<Room>, p: RoomPayload): (errors: set<RoomField>)
    ensures NumberField in errors <==>
      || p.number.None?
      || Trim(p.number.value) == ""
      || HasNul(Trim(p.number.value))
      || |Trim(p.number.value)| > NumberMaxLength
      || NumberTaken(rooms, Trim(p.number.value))
    ensures TypeField in errors <==> p.kind.None? || ParseRoomType(p.kind.value).None?
    ensures CapacityField in errors <==> p.capacity.None? || p.capacity.value < 0
    ensures PriceField in errors <==> p.pricePerNight.None? || !PriceFits(p.pricePerNight.value)
    ensures StatusField in errors <==> p.status.Some? && ParseRoomStatus(p.status.value).None?
    ensures DescriptionField in errors <==> p.description.Some? && HasNul(Trim(p.description.value))
  {
    set f | f in AllRoomFields && RoomFieldFails(rooms, p, f)
  }

  /** A room id larger than every existing one. */
  function FreshRoomId(rooms: seq<Room>): (r: nat)
    ensures forall room | room in rooms :: room.id < r
  {
    if rooms == [] then 1
    else
      var rest := FreshRoomId(rooms[1..]);
      assert forall room | room in rooms :: room == rooms[0] || room in rooms[1..];
      if rooms[0].id < rest then rest else rooms[0].id + 1
  }

  /**
   * `RoomListView` POST: validate, then save a room whose status defaults to
   * available, with the number and description as stripped.
   */
  function CreateRoom(db: Db, req: Request, p: RoomPayload): (r: Result<(Db, Room), ApiError>)
    ensures req.user.None? ==> r == Failure(NotAuthenticated)
    ensures req.user.Some? && RoomErrors(db.rooms, p) != {} ==> r == Failure(RoomFieldsInvalid(RoomErrors(db.rooms, p)))
    ensures req.user.Some? && RoomErrors(db.rooms, p) == {} ==> r.Success?
    ensures r.Success? ==>
      var (db', room) := r.value;
      && db'.bookings == db.bookings
      && db'.rooms == db.rooms + [room]
      && (forall other | other in db.rooms :: other.id != room.id)
      && room.number == Trim(p.number.value)
      && room.kind == ParseRoomType(p.kind.value).value
      && room.capacity == p.capacity.value
      && room.pricePerNight == p.pricePerNight.value
      && (p.status.None? ==> room.status == Available)
      && (p.status.Some? ==> room.status == ParseRoomStatus(p.status.value).value)
      && room.description == (if p.description.Some? then Trim(p.description.value) else "")
  {
    if req.user.None? then Failure(NotAuthenticated)
    else
      var errors := RoomErrors(db.rooms, p);
      if errors != {} then Failure(RoomFieldsInvalid(errors))
      else
        var status := if p.status.Some? then ParseRoomStatus(p.status.value) else None;
        var room := NewRoom(
          FreshRoomId(db.rooms), Trim(p.number.value), ParseRoomType(p.kind.value).value, p.capacity.value,
          p.pricePerNight.value, status, if p.description.Some? then Trim(p.description.value) else "");
        Success((db.(rooms := db.rooms + [room]), room))
  }

  /** A room that passed validation keeps the rooms table valid. */
  lemma CreateRoomKeepsRoomsValid(db: Db, req: Request, p: RoomPayload)
    requires ValidRooms(db.rooms)
    requires CreateRoom(db, req, p).Success?
    ensures ValidRooms(CreateRoom(db, req, p).value.0.rooms)
  {
    var (db', room) := CreateRoom(db, req, p).value;
    assert !NumberTaken(db.rooms, room.number);
    assert forall i | 0 <= i < |db.rooms| :: db.rooms[i] in db.rooms;
  }

  /** `RoomListView` GET: every room, ordered by number. */
  function ListRooms(db: Db, req: Request): (r: Result<seq<Room>, ApiError>)
    ensures req.user.None? <==> r == Failure(NotAuthenticated)
    ensures req.user.Some? ==> r.Success?
    ensures r.Success? ==>
      && multiset(r.value) == multiset(db.rooms)
      && forall i, j | 0 <= i < j < |r.value| :: NumberBefore(r.value[i].number, r.value[j].number)
  {
    if req.user.None? then Failure(NotAuthenticated) else Success(OrderRooms(db.rooms))
  }

  /** `RoomDetailView` GET: any room, by id. */
  function RetrieveRoom(db: Db, req: Request, id: nat): (r: Result<Room, ApiError>)
    ensures req.user.None? <==> r == Failure(NotAuthenticated)
    ensures r.Success? || r == Failure(NotAuthenticated) || r == Failure(NotFound)
    ensures r.Success? ==> r.value in db.rooms && r.value.id == id
    ensures r == Failure(NotFound) <==> req.user.Some? && forall room | room in db.rooms :: room.id != id
  {
    if req.user.None? then Failure(NotAuthenticated)
    else
      var found := FindRoom(db.rooms, id);
      if found.None? then Failure(NotFound) else Success(found.value)
  }

  /** With unique ids, a booking is the only one carrying its id. */
  lemma OnlyBookingWithId(bookings: seq<Booking>, b: Booking, c: Booking)
    requires ValidBookings(bookings)
    requires b in bookings && c in bookings && b.id == c.id
    ensures b == c
  {
    var i :| 0 <= i < |bookings| && bookings[i] == b;
    var j :| 0 <= j < |bookings| && bookings[j] == c;
    assert bookings[i].id == bookings[j].id;
    assert i == j;
  }

  /**
   * Another user's booking cannot be reached through the detail view:
   * retrieving, updating or deleting it reports not found.
   */
  lemma OthersBookingsNotFound(db: Db, req: Request, b: Booking, p: Payload, partial: bool, today: int)
    requires ValidBookings(db.bookings)
    requires b in db.bookings
    requires req.user.Some? && b.user != req.user.value
    ensures RetrieveBooking(db, req, b.id) == Failure(NotFound)
    ensures UpdateBooking(db, req, b.id, p, partial, today) == Failure(NotFound)
    ensures DestroyBooking(db, req, b.id) == Failure(NotFound)
  {
    forall c | c in db.bookings ensures !(c.id == b.id && c.user == req.user.value) {
      if c.id == b.id {
        OnlyBookingWithId(db.bookings, b, c);
      }
    }
  }

  /** Deleting one's own booking leaves every other user's bookings in place. */
  lemma DestroyKeepsOthersBookings(db: Db, req: Request, id: nat)
    requires ValidBookings(db.bookings)
    requires DestroyBooking(db, req, id).Success?
    ensures forall b | b in db.bookings && b.user != req.user.value :: b in DestroyBooking(db, req, id).value.bookings
  {
    var target := OwnBooking(db, req, id).value;
    forall b | b in db.bookings && b.user != req.user.value
      ensures b in DestroyBooking(db, req, id).value.bookings
    {
      if b.id == id {
        OnlyBookingWithId(db.bookings, b, target);
      }
    }
  }

  lemma PrependKeepsValid(b: Booking, rest: seq<Booking>)
    requires ValidBookings(rest) && b.totalPrice.Some?
    requires forall c | c in rest :: c.id != b.id
    ensures ValidBookings([b] + rest)
  {
    var r := [b] + rest;
    forall i, j | 0 <= i < j < |r| ensures r[i].id != r[j].id {
      assert r[j] == rest[j - 1];
      if i > 0 {
        assert r[i] == rest[i - 1];
      }
    }
    forall i | 0 <= i < |r| ensures r[i].totalPrice.Some? {
      if i > 0 {
        assert r[i] == rest[i - 1];
      }
    }
  }

  lemma {:induction false} WithoutIdKeepsValid(bookings: seq<Booking>, id: nat)
    requires ValidBookings(bookings)
    ensures ValidBookings(WithoutId(bookings, id))
    decreases |bookings|
  {
    if bookings != [] {
      var tail := bookings[1..];
      var rest := WithoutId(tail, id);
      assert ValidBookings(tail);
      WithoutIdKeepsValid(tail, id);
      if bookings[0].id != id {
        forall c | c in rest ensures c.id != bookings[0].id {
          var k :| 0 <= k < |tail| && tail[k] == c;
          assert bookings[k + 1] == c;
        }
        assert bookings[0].totalPrice.Some?;
        PrependKeepsValid(bookings[0], rest);
      }
    }
  }

  /** Creating a booking through the intended POST keeps the bookings table's constraints. */
  lemma CreateBookingIntendedKeepsDbValid(db: Db, req: Request, p: Payload, today: int, now: int)
    requires ValidDb(db)
    requires CreateBookingIntended(db, req, p, today, now).Success?
    ensures ValidDb(CreateBookingIntended(db, req, p, today, now).value.0)
  {
    var (db', b) := CreateBookingIntended(db, req, p, today, now).value;
    forall i, j | 0 <= i < j < |db'.bookings| ensures db'.bookings[i].id != db'.bookings[j].id {
      if j == |db.bookings| {
        assert db'.bookings[i] in db.bookings;
      }
    }
  }

  /** Updating a booking keeps the bookings table's constraints. */
  lemma UpdateBookingKeepsDbValid(db: Db, req: Request, id: nat, p: Payload, partial: bool, today: int)
    requires ValidDb(db)
    requires UpdateBooking(db, req, id, p, partial, today).Success?
    ensures ValidDb(UpdateBooking(db, req, id, p, partial, today).value.0)
  {
    var (db', b) := UpdateBooking(db, req, id, p, partial, today).value;
    ReplaceByIdKeepsValid(db.bookings, b);
  }

  lemma ReplaceByIdKeepsValid(bookings: seq<Booking>, b: Booking)
    requires ValidBookings(bookings) && b.totalPrice.Some?
    ensures ValidBookings(ReplaceById(bookings, b))
  {
    var r := ReplaceById(bookings, b);
    assert forall i | 0 <= i < |r| :: r[i].id == bookings[i].id;
  }

  /** Deleting a booking keeps the bookings table's constraints. */
  lemma DestroyBookingKeepsDbValid(db: Db, req: Request, id: nat)
    requires ValidDb(db)
    requires DestroyBooking(db, req, id).Success?
    ensures ValidDb(DestroyBooking(db, req, id).value)
  {
    WithoutIdKeepsValid(db.bookings, id);
  }

  /**
   * A `user` (or `total_price`, or `id`) in a POST body changes nothing, so
   * the owner of a booking the intended POST creates is the requester.
   */
  lemma CreateBookingIgnoresReadOnlyFields(db: Db, req: Request, p: Payload, q: Payload, today: int, now: int)
    requires p.(user := q.user, totalPrice := q.totalPrice, id := q.id) == q
    ensures CreateBooking(db, req, p, today, now) == CreateBooking(db, req, q, today, now)
    ensures CreateBookingIntended(db, req, p, today, now) == CreateBookingIntended(db, req, q, today, now)
  {
    ReadOnlyFieldsIgnored(p, q, false);
  }

  /**
   * A partial update checks the dates only when both are submitted, and a
   * saved total is never recomputed: a PATCH of one's own priced booking
   * that moves only the check-out before the check-in is accepted and keeps
   * the old total.
   */
  lemma PartialUpdateCanReverseDates(db: Db, req: Request, b: Booking, out: int, today: int)
    requires ValidBookings(db.bookings)
    requires b in db.bookings && req.user == Some(b.user)
    requires PriceSet(b.totalPrice) && FindRoom(db.rooms, b.room).Some?
    requires out < b.checkIn
    ensures var patch := Payload(None, None, Some(out), None, None, None, None, None);
      var r := UpdateBooking(db, req, b.id, patch, true, today);
      && r.Success?
      && r.value.1.checkIn == b.checkIn && r.value.1.checkOut == out
      && r.value.1.totalPrice == b.totalPrice
  {
    forall c | c in db.bookings && c.id == b.id && c.user == b.user ensures c == b {
      OnlyBookingWithId(db.bookings, b, c);
    }
    assert OwnBooking(db, req, b.id) == Success(b);
  }
}

=== FILE: init_cms.dfy ===
/**
 * The run sequencing and command dispatch of the CMS initialisation script:
 * load, connectivity check, admin account, role lookups and seeding in a
 * fixed order. The first four are must-succeed (exit code 1, nothing after
 * runs); seeding errors are swallowed.
 */
module InitCms {
  import opened Wrappers
  import opened CmsStore
  import opened Seeding
  import opened Admin

  /** The must-succeed step whose error ended the run. */
  datatype Stage = Loading | Connectivity | AdminAccount | Permissions | Shutdown

  datatype Run = Run(exitCode: int, store: Store, trace: seq<Call>, failedAt: Option<Stage>)

  /** The collections the script can write. */
  const Written: set<string> := {AdminUid, RoomTypeUid, FacilityUid}

  /**
   * `initializeCMS`. The `catch` calls `process.exit(1)`, which ends the
   * process at once, so the `finally` (destroy, exit 0) only runs after
   * success; a rejected `destroy` there leaves an unhandled rejection, which
   * ends the process with code 1.
   */
  function InitializeCms(s: Store, env: Env, manifest: Manifest, contentTypes: set<string>, hash: string -> string, faults: set<Call>): (r: Run)
    ensures r.exitCode == (if r.failedAt.None? then 0 else 1)
    ensures r.store - Written == s - Written
    ensures r.failedAt.Some? && r.failedAt != Some(Shutdown) ==>
      Destroy !in r.trace && Coll(r.store, RoomTypeUid) == Coll(s, RoomTypeUid) && Coll(r.store, FacilityUid) == Coll(s, FacilityUid)
    ensures LoadApp in faults || Ping in faults ==> r.exitCode == 1 && r.store == s && ReadOnly(r.trace)
  {
    if LoadApp in faults then Run(1, s, [LoadApp], Some(Loading))
    else if Ping in faults then Run(1, s, [LoadApp, Ping], Some(Connectivity))
    else
      var admin := CreateAdminUser(s, ConfigFromEnv(env), hash, faults);
      var t1 := [LoadApp, Ping] + admin.trace;
      CreateAdminUserKeepsConnection(s, ConfigFromEnv(env), hash, faults);
      FrameGrow(s, admin.store, {AdminUid}, Written);
      CollOutside(s, admin.store, {AdminUid}, RoomTypeUid);
      CollOutside(s, admin.store, {AdminUid}, FacilityUid);
      if admin.error.Some? then Run(1, admin.store, t1, Some(AdminAccount))
      else
        var perms := SetupDefaultPermissions(admin.store, faults);
        var t2 := t1 + perms.trace;
        if perms.error.Some? then Run(1, perms.store, t2, Some(Permissions))
        else
          var seeding := SeedDefaultData(perms.store, manifest, contentTypes, faults);
          var t3 := t2 + seeding.trace + [Destroy];
          FrameGrow(perms.store, seeding.store, {RoomTypeUid, FacilityUid}, Written);
          if Destroy in faults then Run(1, seeding.store, t3, Some(Shutdown))
          else Run(0, seeding.store, t3, None)
  }

  /** Every run starts by loading the framework. */
  lemma InitializeCmsStartsWithLoad(s: Store, env: Env, manifest: Manifest, contentTypes: set<string>, hash: string -> string, faults: set<Call>)
    ensures var r := InitializeCms(s, env, manifest, contentTypes, hash, faults);
      |r.trace| > 0 && r.trace[0] == LoadApp
  {
  }

  /** The store after a run is the initial store with the run's successful creates applied. */
  lemma InitializeCmsReplay(s: Store, env: Env, manifest: Manifest, contentTypes: set<string>, hash: string -> string, faults: set<Call>)
    ensures var r := InitializeCms(s, env, manifest, contentTypes, hash, faults);
      r.store == Replay(s, r.trace, faults)
  {
    if LoadApp !in faults && Ping !in faults {
      var admin := CreateAdminUser(s, ConfigFromEnv(env), hash, faults);
      var t1 := [LoadApp, Ping] + admin.trace;
      ReplayWithoutCreates(s, [LoadApp, Ping], faults);
      ReplayConcat(s, [LoadApp, Ping], admin.trace, faults);
      if admin.error.None? {
        var perms := SetupDefaultPermissions(admin.store, faults);
        var t2 := t1 + perms.trace;
        ReplayWithoutCreates(admin.store, perms.trace, faults);
        ReplayConcat(s, t1, perms.trace, faults);
        if perms.error.None? {
          var seeding := SeedDefaultData(perms.store, manifest, contentTypes, faults);
          SeedDefaultDataStops(perms.store, manifest, contentTypes, faults);
          ReplayConcat(s, t2, seeding.trace, faults);
          ReplayConcat(s, t2 + seeding.trace, [Destroy], faults);
          ReplayWithoutCreates(seeding.store, [Destroy], faults);
        }
      }
    }
  }

  /**
   * A failed run ends on the call that threw, and before a must-succeed
   * failure no other call threw, so no later step ran; a successful run ends
   * with `destroy`.
   */
  lemma InitializeCmsStops(s: Store, env: Env, manifest: Manifest, contentTypes: set<string>, hash: string -> string, faults: set<Call>)
    ensures var r := InitializeCms(s, env, manifest, contentTypes, hash, faults);
      && (r.failedAt.Some? ==> |r.trace| > 0 && r.trace[|r.trace| - 1] in faults)
      && (r.failedAt.Some? && r.failedAt != Some(Shutdown) ==> Clean(r.trace[..|r.trace| - 1], faults))
      && (r.failedAt.None? ==> |r.trace| > 0 && r.trace[|r.trace| - 1] == Destroy)
  {
    if LoadApp !in faults && Ping !in faults {
      var admin := CreateAdminUser(s, ConfigFromEnv(env), hash, faults);
      var t1 := [LoadApp, Ping] + admin.trace;
      StopsAfterClean([LoadApp, Ping], admin.trace, admin.error, faults);
      if admin.error.None? {
        var perms := SetupDefaultPermissions(admin.store, faults);
        StopsAfterClean(t1, perms.trace, perms.error, faults);
      }
    }
  }

  /**
   * Seeding errors never fail a run: the exit code is 0 exactly when none of
   * the must-succeed calls threw, whatever the seeding calls did.
   */
  lemma InitializeCmsExitCode(s: Store, env: Env, manifest: Manifest, contentTypes: set<string>, hash: string -> string, faults: set<Call>)
    ensures var r := InitializeCms(s, env, manifest, contentTypes, hash, faults);
      r.exitCode == 0 <==>
        && LoadApp !in faults
        && Ping !in faults
        && CreateAdminUser(s, ConfigFromEnv(env), hash, faults).error.None?
        && FindOne(RoleUid, "type", "public") !in faults
        && FindOne(RoleUid, "type", "authenticated") !in faults
        && Destroy !in faults
  {
  }

  /**
   * No overwrite: when the configured admin account already exists, a run
   * leaves the admin collection, and so that account's password hash, as it
   * is, whatever the configured password and whatever fails.
   */
  lemma InitializeCmsKeepsExistingAdmin(s: Store, env: Env, manifest: Manifest, contentTypes: set<string>, hash: string -> string, faults: set<Call>)
    requires HasAccount(s, ConfigFromEnv(env).email)
    ensures Coll(InitializeCms(s, env, manifest, contentTypes, hash, faults).store, AdminUid) == Coll(s, AdminUid)
  {
    var r := InitializeCms(s, env, manifest, contentTypes, hash, faults);
    if LoadApp !in faults && Ping !in faults {
      var admin := CreateAdminUser(s, ConfigFromEnv(env), hash, faults);
      CreateAdminUserKeepsExisting(s, ConfigFromEnv(env), hash, faults);
      if admin.error.None? && SetupDefaultPermissions(admin.store, faults).error.None? {
        var seeding := SeedDefaultData(s, manifest, contentTypes, faults);
        CollOutside(s, seeding.store, {RoomTypeUid, FacilityUid}, AdminUid);
      }
    }
  }

  /**
   * A failure-free run from any store leaves the configured admin account
   * present and each registered lookup collection holding its old records
   * followed by exactly the missing manifest records.
   */
  lemma InitializeCmsCompletes(s: Store, env: Env, manifest: Manifest, hash: string -> string)
    requires DistinctNames(manifest.roomTypes) && DistinctNames(manifest.facilities)
    ensures var r := InitializeCms(s, env, manifest, {RoomTypeUid, FacilityUid}, hash, {});
      && r.exitCode == 0
      && HasAccount(r.store, ConfigFromEnv(env).email)
      && Coll(r.store, RoomTypeUid) == Coll(s, RoomTypeUid) + Missing(Coll(s, RoomTypeUid), manifest.roomTypes)
      && Coll(r.store, FacilityUid) == Coll(s, FacilityUid) + Missing(Coll(s, FacilityUid), manifest.facilities)
  {
    var cfg := ConfigFromEnv(env);
    var admin := CreateAdminUser(s, cfg, hash, {});
    CreateAdminUserIdempotent(s, cfg, hash);
    var seeding := SeedDefaultData(admin.store, manifest, {RoomTypeUid, FacilityUid}, {});
    SeedDefaultDataInsertsMissing(admin.store, manifest, {RoomTypeUid, FacilityUid});
    CollOutside(s, admin.store, {AdminUid}, RoomTypeUid);
    CollOutside(s, admin.store, {AdminUid}, FacilityUid);
    CollOutside(admin.store, seeding.store, {RoomTypeUid, FacilityUid}, AdminUid);
  }

  /** A failure-free run is the admin step, the role lookups, the seeding and the shutdown, in this order. */
  lemma InitializeCmsWithoutFaults(s: Store, env: Env, manifest: Manifest, contentTypes: set<string>, hash: string -> string)
    ensures var admin := CreateAdminUser(s, ConfigFromEnv(env), hash, {});
      var seeding := SeedDefaultData(admin.store, manifest, contentTypes, {});
      InitializeCms(s, env, manifest, contentTypes, hash, {}) ==
        Run(0, seeding.store,
            [LoadApp, Ping] + admin.trace + [FindOne(RoleUid, "type", "public"), FindOne(RoleUid, "type", "authenticated")]
              + seeding.trace + [Destroy],
            None)
  {
    CreateAdminUserIdempotent(s, ConfigFromEnv(env), hash);
  }

  /**
   * A failure-free run from a store that already holds the configured admin
   * account, and on which seeding creates nothing, creates nothing either.
   */
  lemma InitializeCmsOnInitializedStore(t: Store, env: Env, manifest: Manifest, contentTypes: set<string>, hash: string -> string)
    requires HasAccount(t, ConfigFromEnv(env).email)
    requires var seeding := SeedDefaultData(t, manifest, contentTypes, {});
      seeding.store == t && ReadOnly(seeding.trace)
    ensures var r := InitializeCms(t, env, manifest, contentTypes, hash, {});
      r.store == t && r.exitCode == 0 && ReadOnly(r.trace)
  {
    var cfg := ConfigFromEnv(env);
    CreateAdminUserKeepsExisting(t, cfg, hash, {});
    InitializeCmsWithoutFaults(t, env, manifest, contentTypes, hash);
    var admin := CreateAdminUser(t, cfg, hash, {});
    var seeding := SeedDefaultData(admin.store, manifest, contentTypes, {});
    var r := InitializeCms(t, env, manifest, contentTypes, hash, {});
    forall c | c in r.trace ensures !c.Create? {
      assert c in [LoadApp, Ping] + admin.trace + [FindOne(RoleUid, "type", "public"), FindOne(RoleUid, "type", "authenticated")]
        || c in seeding.trace || c == Destroy;
    }
  }

  /**
   * Idempotence of the whole run: a second failure-free run from the store
   * the first one produced leaves it as it is and creates nothing.
   */
  lemma InitializeCmsIdempotent(s: Store, env: Env, manifest: Manifest, contentTypes: set<string>, hash: string -> string)
    ensures var once := InitializeCms(s, env, manifest, contentTypes, hash, {});
      var twice := InitializeCms(once.store, env, manifest, contentTypes, hash, {});
      twice.store == once.store && twice.exitCode == 0 && ReadOnly(twice.trace)
  {
    var cfg := ConfigFromEnv(env);
    var admin := CreateAdminUser(s, cfg, hash, {});
    CreateAdminUserIdempotent(s, cfg, hash);
    InitializeCmsWithoutFaults(s, env, manifest, contentTypes, hash);
    var once := InitializeCms(s, env, manifest, contentTypes, hash, {});
    SeedDefaultDataIdempotent(admin.store, manifest, contentTypes);
    CollOutside(admin.store, once.store, {RoomTypeUid, FacilityUid}, AdminUid);
    assert HasAccount(once.store, cfg.email);
    InitializeCmsOnInitializedStore(once.store, env, manifest, contentTypes, hash);
  }

  datatype Health = Health(exitCode: int, adminCount: Option<nat>, trace: seq<Call>)

  /**
   * `healthCheck`: load, `SELECT 1`, count the admin accounts, destroy. Any
   * error is caught and exits with code 1; on success the process ends
   * normally, with code 0.
   */
  function HealthCheck(s: Store, faults: set<Call>): (r: Health)
    ensures ReadOnly(r.trace)
    ensures r.trace <= [LoadApp, Ping, Count(AdminUid), Destroy]
    ensures r.exitCode == 0 ==> r.trace == [LoadApp, Ping, Count(AdminUid), Destroy]
    ensures r.exitCode == 0 || r.exitCode == 1
    ensures r.exitCode == 0 <==> Clean([LoadApp, Ping, Count(AdminUid), Destroy], faults)
    ensures r.exitCode == 0 ==> r.adminCount == Some(|Coll(s, AdminUid)|)
    ensures r.exitCode == 1 ==> |r.trace| > 0 && StopsAtFirstFault(r.trace, Some(r.trace[|r.trace| - 1]), faults)
  {
    var calls := [LoadApp, Ping, Count(AdminUid), Destroy];
    if LoadApp in faults then Health(1, None, calls[..1])
    else if Ping in faults then Health(1, None, calls[..2])
    else if Count(AdminUid) in faults then Health(1, None, calls[..3])
    else if Destroy in faults then Health(1, None, calls)
    else Health(0, Some(|Coll(s, AdminUid)|), calls)
  }

  /** The outcome of one invocation of the script. */
  datatype Outcome = Outcome(exitCode: int, store: Store, trace: seq<Call>)

  /** `process.argv[2]`, absent when fewer arguments were given. */
  function CommandOf(argv: seq<string>): (command: Option<string>)
  {
    if |argv| > 2 then Some(argv[2]) else None
  }

  /**
   * The command `switch`: `init` runs the initialisation over the script's
   * manifests, `health` the health check; anything else, or nothing, prints
   * the usage and exits with code 1.
   */
  function Dispatch(argv: seq<string>, s: Store, env: Env, contentTypes: set<string>, hash: string -> string, faults: set<Call>): (r: Outcome)
    ensures r.exitCode == 0 || r.exitCode == 1
    ensures CommandOf(argv) != Some("init") ==> r.store == s
    ensures CommandOf(argv) == Some("init") ==>
      var run := InitializeCms(s, env, ScriptManifest, contentTypes, hash, faults);
      r.exitCode == run.exitCode && r.store == run.store && r.trace == run.trace
    ensures CommandOf(argv) == Some("health") ==>
      && (r.exitCode == 1 <==> !Clean([LoadApp, Ping, Count(AdminUid), Destroy], faults))
      && ReadOnly(r.trace)
  {
    if CommandOf(argv) == Some("init") then
      var run := InitializeCms(s, env, ScriptManifest, contentTypes, hash, faults);
      Outcome(run.exitCode, run.store, run.trace)
    else if CommandOf(argv) == Some("health") then
      var health := HealthCheck(s, faults);
      Outcome(health.exitCode, s, health.trace)
    else
      Outcome(1, s, [])
  }

  /**
   * Any argument other than `init` or `health`, or none, is a usage error:
   * exit code 1 and no call into the framework at all; both commands start
   * by loading the framework.
   */
  lemma DispatchUsage(argv: seq<string>, s: Store, env: Env, contentTypes: set<string>, hash: string -> string, faults: set<Call>)
    ensures var r := Dispatch(argv, s, env, contentTypes, hash, faults);
      && (CommandOf(argv) != Some("init") && CommandOf(argv) != Some("health") ==> r.exitCode == 1 && r.trace == [])
      && (CommandOf(argv) == Some("init") || CommandOf(argv) == Some("health") ==> |r.trace| > 0 && r.trace[0] == LoadApp)
  {
    if CommandOf(argv) == Some("init") {
      InitializeCmsStartsWithLoad(s, env, ScriptManifest, contentTypes, hash, faults);
    }
  }

  /** Exit code 0 means a command ran to the end: its last call was the successful `destroy`. */
  lemma DispatchSucceedsOnlyAfterShutdown(argv: seq<string>, s: Store, env: Env, contentTypes: set<string>, hash: string -> string, faults: set<Call>)
    ensures var r := Dispatch(argv, s, env, contentTypes, hash, faults);
      r.exitCode == 0 ==>
        && CommandOf(argv) in {Some("init"), Some("health")}
        && |r.trace| > 0 && r.trace[|r.trace| - 1] == Destroy && Destroy !in faults
  {
    if CommandOf(argv) == Some("init") {
      InitializeCmsStops(s, env, ScriptManifest, contentTypes, hash, faults);
    }
  }

  /** Only `process.argv[2]` matters: two argument lists naming the same command behave alike. */
  lemma DispatchReadsCommandOnly(argv: seq<string>, other: seq<string>, s: Store, env: Env, contentTypes: set<string>, hash: string -> string, faults: set<Call>)
    requires CommandOf(argv) == CommandOf(other)
    ensures Dispatch(argv, s, env, contentTypes, hash, faults) == Dispatch(other, s, env, contentTypes, hash, faults)
  {
  }
}

=== FILE: ordering.dfy ===
/**
 * Listing order for querysets with a `Meta.ordering`: an insertion sort by a
 * total, transitive "may come before" relation, specified as a sorted
 * permutation of its input.
 */
module Ordering {

  ghost predicate Total<T(!new)>(before: (T, T) -> bool)
  {
    forall a, b :: before(a, b) || before(b, a)
  }

  ghost predicate Transitive<T(!new)>(before: (T, T) -> bool)
  {
    forall a, b, c :: before(a, b) && before(b, c) ==> before(a, c)
  }

  ghost predicate SortedBy<T>(s: seq<T>, before: (T, T) -> bool)
  {
    forall i, j | 0 <= i < j < |s| :: before(s[i], s[j])
  }

  /** `x` placed into `s` before the first element it may precede. */
  function InsertSorted<T>(x: T, s: seq<T>, before: (T, T) -> bool): (r: seq<T>)
    ensures multiset(r) == multiset(s) + multiset{x}
  {
    if s == [] then [x]
    else if before(x, s[0]) then [x] + s
    else
      assert s == [s[0]] + s[1..];
      [s[0]] + InsertSorted(x, s[1..], before)
  }

  lemma {:induction false} InsertSortedKeepsOrder<T(!new)>(x: T, s: seq<T>, before: (T, T) -> bool)
    requires Total(before) && Transitive(before)
    requires SortedBy(s, before)
    ensures SortedBy(InsertSorted(x, s, before), before)
  {
    if s != [] && !before(x, s[0]) {
      var rest := InsertSorted(x, s[1..], before);
      InsertSortedKeepsOrder(x, s[1..], before);
      assert before(s[0], x);
      forall y | y in rest ensures before(s[0], y) {
        assert y in multiset(rest);
        if y != x {
          assert y in multiset(s[1..]);
          var j :| 0 <= j < |s[1..]| && s[1..][j] == y;
          assert s[j + 1] == y;
        }
      }
      var r := [s[0]] + rest;
      forall i, j | 0 <= i < j < |r| ensures before(r[i], r[j]) {
        if i == 0 {
          assert r[j] == rest[j - 1];
          assert r[j] in rest;
        } else {
          assert r[i] == rest[i - 1] && r[j] == rest[j - 1];
        }
      }
    }
  }

  /** The elements of `s`, each as often as in `s`, in an order `before` agrees with. */
  function SortBy<T(!new)>(s: seq<T>, before: (T, T) -> bool): (r: seq<T>)
    requires Total(before) && Transitive(before)
    ensures multiset(r) == multiset(s)
    ensures SortedBy(r, before)
  {
    if s == [] then []
    else
      assert s == [s[0]] + s[1..];
      var sorted := SortBy(s[1..], before);
      InsertSortedKeepsOrder(s[0], sorted, before);
      InsertSorted(s[0], sorted, before)
  }
}

=== FILE: seeding.dfy ===
/**
 * The lookup-table seeding of the CMS initialisation script: two
 * insert-if-name-absent passes over fixed manifests (room types, then
 * facilities), each gated on its content type being registered, with any
 * error stopping all remaining seeding and being swallowed by the caller.
 */
module Seeding {
  import opened Wrappers
  import opened CmsStore

  /** A manifest entry: the record to create, keyed by its `name`. */
  datatype Entry = Entry(name: string, attrs: map<string, Field>)

  /** The data passed to `create` for an entry. */
  function EntryRecord(e: Entry): (r: Record)
  {
    e.attrs["name" := Text(e.name)]
  }

  const RoomTypeUid := "api::room-type.room-type"
  const FacilityUid := "api::facility.facility"

  function RoomType(name: string, capacity: int, description: string): (e: Entry)
  {
    Entry(name, map["capacity" := Number(capacity), "description" := Text(description)])
  }

  function Facility(name: string, icon: string, description: string): (e: Entry)
  {
    Entry(name, map["icon" := Text(icon), "description" := Text(description)])
  }

  const DefaultRoomTypes: seq<Entry> := [
    RoomType("Single Room", 1, "Private single bed room"),
    RoomType("Double Room", 2, "Private double bed room"),
    RoomType("Dormitory 4", 4, "4-bed shared dormitory"),
    RoomType("Dormitory 6", 6, "6-bed shared dormitory"),
    RoomType("Dormitory 8", 8, "8-bed shared dormitory")
  ]

  const DefaultFacilities: seq<Entry> := [
    Facility("WiFi", "wifi", "Free wireless internet"),
    Facility("Air Conditioning", "snowflake", "Climate control"),
    Facility("Private Bathroom", "bath", "En-suite bathroom"),
    Facility("Shared Kitchen", "utensils", "Common kitchen area"),
    Facility("Laundry", "tshirt", "Washing facilities"),
    Facility("Parking", "car", "Vehicle parking"),
    Facility("Breakfast", "coffee", "Continental breakfast"),
    Facility("24h Reception", "clock", "24-hour front desk")
  ]

  /** The two fixed manifests of the script: room types, then facilities. */
  datatype Manifest = Manifest(roomTypes: seq<Entry>, facilities: seq<Entry>)

  const ScriptManifest := Manifest(DefaultRoomTypes, DefaultFacilities)

  ghost predicate DistinctNames(m: seq<Entry>)
  {
    forall i, j | 0 <= i < j < |m| :: m[i].name != m[j].name
  }

  /** How many records of `xs` the lookup `filters: { name }` returns. */
  function Named(xs: seq<Record>, name: string): (n: nat)
  {
    |Where(xs, "name", name)|
  }

  /** The calls a pass over collection `uid` may issue. */
  predicate OnCollection(c: Call, uid: string)
  {
    (c.FindMany? && c.collection == uid && c.field == "name") || (c.Create? && c.collection == uid)
  }

  /** Outcome of one seed pass: `done` counts the manifest entries handled before any error. */
  datatype Pass = Pass(store: Store, trace: seq<Call>, done: nat, error: Option<Call>)

  /**
   * One insert-if-name-absent pass over `manifest` into collection `uid`: for
   * each entry in order, look it up by name and create it when there is no
   * match. The first call that throws ends the pass.
   */
  function SeedPass(s: Store, uid: string, manifest: seq<Entry>, faults: set<Call>): (r: Pass)
    ensures r.done <= |manifest|
    ensures r.error.None? <==> r.done == |manifest|
    ensures r.store - {uid} == s - {uid}
    ensures Coll(s, uid) <= Coll(r.store, uid)
    decreases |manifest|
  {
    if manifest == [] then Pass(s, [], 0, None)
    else
      var e := manifest[0];
      var find := FindMany(uid, "name", e.name);
      if find in faults then Pass(s, [find], 0, Some(find))
      else if Named(Coll(s, uid), e.name) == 0 then
        var create := Create(uid, EntryRecord(e));
        if create in faults then Pass(s, [find, create], 0, Some(create))
        else
          var rest := SeedPass(Insert(s, uid, EntryRecord(e)), uid, manifest[1..], faults);
          Pass(rest.store, [find, create] + rest.trace, rest.done + 1, rest.error)
      else
        var rest := SeedPass(s, uid, manifest[1..], faults);
        Pass(rest.store, [find] + rest.trace, rest.done + 1, rest.error)
  }

  /** A pass stops at the first call that throws. */
  lemma {:induction false} SeedPassStops(s: Store, uid: string, manifest: seq<Entry>, faults: set<Call>)
    ensures var r := SeedPass(s, uid, manifest, faults); StopsAtFirstFault(r.trace, r.error, faults)
    decreases |manifest|
  {
    if manifest != [] {
      var e := manifest[0];
      var find := FindMany(uid, "name", e.name);
      if find in faults {
      } else if Named(Coll(s, uid), e.name) == 0 {
        var create := Create(uid, EntryRecord(e));
        if create !in faults {
          var s' := Insert(s, uid, EntryRecord(e));
          var rest := SeedPass(s', uid, manifest[1..], faults);
          SeedPassStops(s', uid, manifest[1..], faults);
          StopsAfterClean([find, create], rest.trace, rest.error, faults);
        }
      } else {
        var rest := SeedPass(s, uid, manifest[1..], faults);
        SeedPassStops(s, uid, manifest[1..], faults);
        StopsAfterClean([find], rest.trace, rest.error, faults);
      }
    }
  }

  /** A pass issues lookups and creates on collection `uid` only. */
  lemma {:induction false} SeedPassStaysOnCollection(s: Store, uid: string, manifest: seq<Entry>, faults: set<Call>)
    ensures var r := SeedPass(s, uid, manifest, faults);
      && (forall c | c in r.trace :: OnCollection(c, uid))
      && (r.error.Some? ==> OnCollection(r.error.value, uid))
    decreases |manifest|
  {
    if manifest != [] {
      var e := manifest[0];
      if FindMany(uid, "name", e.name) !in faults {
        if Named(Coll(s, uid), e.name) == 0 {
          if Create(uid, EntryRecord(e)) !in faults {
            SeedPassStaysOnCollection(Insert(s, uid, EntryRecord(e)), uid, manifest[1..], faults);
          }
        } else {
          SeedPassStaysOnCollection(s, uid, manifest[1..], faults);
        }
      }
    }
  }

  /** The store after a pass is the initial store with the pass's successful creates applied. */
  lemma {:induction false} SeedPassReplay(s: Store, uid: string, manifest: seq<Entry>, faults: set<Call>)
    ensures var r := SeedPass(s, uid, manifest, faults); r.store == Replay(s, r.trace, faults)
    decreases |manifest|
  {
    if manifest != [] {
      var e := manifest[0];
      var find := FindMany(uid, "name", e.name);
      assert [find][1..] == [];
      if find in faults {
      } else if Named(Coll(s, uid), e.name) == 0 {
        var create := Create(uid, EntryRecord(e));
        var s' := Insert(s, uid, EntryRecord(e));
        assert [find, create][1..] == [create];
        assert [create][1..] == [];
        if create in faults {
          assert Replay(s, [create], faults) == s;
        } else {
          var rest := SeedPass(s', uid, manifest[1..], faults);
          SeedPassReplay(s', uid, manifest[1..], faults);
          ReplayConcat(s, [find, create], rest.trace, faults);
          assert Replay(s, [create], faults) == s';
        }
      } else {
        var rest := SeedPass(s, uid, manifest[1..], faults);
        SeedPassReplay(s, uid, manifest[1..], faults);
        ReplayConcat(s, [find], rest.trace, faults);
      }
    }
  }

  /**
   * Reference definition of a completed pass: the records of the manifest
   * entries whose name has no match in `xs`, in manifest order.
   */
  function Missing(xs: seq<Record>, manifest: seq<Entry>): (r: seq<Record>)
    ensures |r| <= |manifest|
  {
    if manifest == [] then []
    else
      (if Named(xs, manifest[0].name) == 0 then [EntryRecord(manifest[0])] else [])
      + Missing(xs, manifest[1..])
  }

  /** Appending a record that matches none of the manifest's names does not change what is missing. */
  lemma {:induction false} MissingIgnoresOtherNames(xs: seq<Record>, rec: Record, manifest: seq<Entry>)
    requires forall e | e in manifest :: !Matches(rec, "name", e.name)
    ensures Missing(xs + [rec], manifest) == Missing(xs, manifest)
    decreases |manifest|
  {
    if manifest != [] {
      assert manifest[0] in manifest;
      WhereAppend(xs, [rec], "name", manifest[0].name);
      MissingIgnoresOtherNames(xs, rec, manifest[1..]);
    }
  }

  /** In a manifest of distinct names, the head's record matches no later name. */
  lemma HeadMatchesNoLaterName(manifest: seq<Entry>)
    requires DistinctNames(manifest)
    requires manifest != []
    ensures forall e | e in manifest[1..] :: !Matches(EntryRecord(manifest[0]), "name", e.name)
  {
    forall e | e in manifest[1..] ensures !Matches(EntryRecord(manifest[0]), "name", e.name) {
      var j :| 0 <= j < |manifest[1..]| && manifest[1..][j] == e;
      assert manifest[j + 1] == e;
    }
  }

  /**
   * With no failure, a pass over a manifest of distinct names appends
   * exactly the manifest records whose name was absent, after the records
   * already stored.
   */
  lemma {:induction false} SeedPassInsertsMissing(s: Store, uid: string, manifest: seq<Entry>)
    requires DistinctNames(manifest)
    ensures var r := SeedPass(s, uid, manifest, {});
      && r.error == None
      && Coll(r.store, uid) == Coll(s, uid) + Missing(Coll(s, uid), manifest)
    decreases |manifest|
  {
    if manifest != [] {
      var e := manifest[0];
      var xs := Coll(s, uid);
      assert DistinctNames(manifest[1..]);
      var r := SeedPass(s, uid, manifest, {});
      if Named(xs, e.name) == 0 {
        var s' := Insert(s, uid, EntryRecord(e));
        var rest := SeedPass(s', uid, manifest[1..], {});
        assert r.store == rest.store && r.error == rest.error;
        assert Coll(s', uid) == xs + [EntryRecord(e)];
        SeedPassInsertsMissing(s', uid, manifest[1..]);
        MissingAfterInsert(xs, manifest);
      } else {
        var rest := SeedPass(s, uid, manifest[1..], {});
        assert r.store == rest.store && r.error == rest.error;
        assert Missing(xs, manifest) == Missing(xs, manifest[1..]);
        SeedPassInsertsMissing(s, uid, manifest[1..]);
      }
    }
  }

  /** The inductive step of `SeedPassInsertsMissing` for an entry that gets created. */
  lemma MissingAfterInsert(xs: seq<Record>, manifest: seq<Entry>)
    requires DistinctNames(manifest)
    requires manifest != [] && Named(xs, manifest[0].name) == 0
    ensures var rec := EntryRecord(manifest[0]);
      (xs + [rec]) + Missing(xs + [rec], manifest[1..]) == xs + Missing(xs, manifest)
  {
    var rec := EntryRecord(manifest[0]);
    HeadMatchesNoLaterName(manifest);
    MissingIgnoresOtherNames(xs, rec, manifest[1..]);
    assert Missing(xs, manifest) == [rec] + Missing(xs, manifest[1..]);
  }

  /** How many records of the missing list carry a given name. */
  lemma {:induction false} MissingNamed(xs: seq<Record>, manifest: seq<Entry>, i: int)
    requires DistinctNames(manifest)
    requires 0 <= i < |manifest|
    ensures Named(Missing(xs, manifest), manifest[i].name) == if Named(xs, manifest[i].name) == 0 then 1 else 0
    decreases |manifest|
  {
    var n := manifest[i].name;
    var head := if Named(xs, manifest[0].name) == 0 then [EntryRecord(manifest[0])] else [];
    WhereAppend(head, Missing(xs, manifest[1..]), "name", n);
    assert Where([EntryRecord(manifest[0])], "name", n)
      == (if Matches(EntryRecord(manifest[0]), "name", n) then [EntryRecord(manifest[0])] else []);
    if i == 0 {
      MissingNoneNamed(xs, manifest[1..], n);
    } else {
      assert DistinctNames(manifest[1..]);
      assert manifest[1..][i - 1] == manifest[i];
      MissingNamed(xs, manifest[1..], i - 1);
    }
  }

  lemma {:induction false} MissingNoneNamed(xs: seq<Record>, manifest: seq<Entry>, n: string)
    requires forall e | e in manifest :: e.name != n
    ensures Named(Missing(xs, manifest), n) == 0
    decreases |manifest|
  {
    if manifest != [] {
      assert manifest[0] in manifest;
      var head := if Named(xs, manifest[0].name) == 0 then [EntryRecord(manifest[0])] else [];
      WhereAppend(head, Missing(xs, manifest[1..]), "name", n);
      assert Where([EntryRecord(manifest[0])], "name", n) == [];
      MissingNoneNamed(xs, manifest[1..], n);
    }
  }

  /**
   * After a completed pass over distinct names, every manifest name is
   * present, and a name already present gained no copy: its count is
   * max(old count, 1).
   */
  lemma SeedPassNameCounts(s: Store, uid: string, manifest: seq<Entry>, i: int)
    requires DistinctNames(manifest)
    requires 0 <= i < |manifest|
    ensures var old_ := Named(Coll(s, uid), manifest[i].name);
      Named(Coll(SeedPass(s, uid, manifest, {}).store, uid), manifest[i].name) == if old_ == 0 then 1 else old_
  {
    var xs := Coll(s, uid);
    SeedPassInsertsMissing(s, uid, manifest);
    WhereAppend(xs, Missing(xs, manifest), "name", manifest[i].name);
    MissingNamed(xs, manifest, i);
  }

  /** After a pass without failure every manifest name is present, whether or not names repeat. */
  lemma {:induction false} SeedPassCovers(s: Store, uid: string, manifest: seq<Entry>)
    ensures var r := SeedPass(s, uid, manifest, {});
      forall e | e in manifest :: Named(Coll(r.store, uid), e.name) >= 1
    decreases |manifest|
  {
    if manifest != [] {
      var e := manifest[0];
      var xs := Coll(s, uid);
      var s' := if Named(xs, e.name) == 0 then Insert(s, uid, EntryRecord(e)) else s;
      var rest := SeedPass(s', uid, manifest[1..], {});
      assert SeedPass(s, uid, manifest, {}).store == rest.store;
      if Named(xs, e.name) == 0 {
        WhereAppend(xs, [EntryRecord(e)], "name", e.name);
      }
      assert Named(Coll(s', uid), e.name) >= 1;
      WhereGrows(Coll(s', uid), Coll(rest.store, uid), "name", e.name);
      SeedPassCovers(s', uid, manifest[1..]);
      assert forall e' | e' in manifest :: e' == e || e' in manifest[1..];
    }
  }

  /** A pass over names that are all present changes nothing and creates nothing. */
  lemma {:induction false} SeedPassOnSeededStore(s: Store, uid: string, manifest: seq<Entry>)
    requires forall e | e in manifest :: Named(Coll(s, uid), e.name) >= 1
    ensures var r := SeedPass(s, uid, manifest, {});
      r.store == s && r.error == None && ReadOnly(r.trace)
    decreases |manifest|
  {
    if manifest != [] {
      assert manifest[0] in manifest;
      SeedPassOnSeededStore(s, uid, manifest[1..]);
    }
  }

  /**
   * Idempotence: a second pass from the store a failure-free pass produced
   * leaves it as it is and creates nothing.
   */
  lemma SeedPassIdempotent(s: Store, uid: string, manifest: seq<Entry>)
    ensures var once := SeedPass(s, uid, manifest, {});
      var twice := SeedPass(once.store, uid, manifest, {});
      twice.store == once.store && ReadOnly(twice.trace)
  {
    var once := SeedPass(s, uid, manifest, {});
    SeedPassCovers(s, uid, manifest);
    SeedPassOnSeededStore(once.store, uid, manifest);
  }

  /**
   * Under failures, a pass leaves the store exactly as a failure-free pass
   * over the entries it finished would: the failing entry and everything
   * after it in the manifest are not created.
   */
  lemma {:induction false} SeedPassStopsEarly(s: Store, uid: string, manifest: seq<Entry>, faults: set<Call>)
    ensures var r := SeedPass(s, uid, manifest, faults);
      r.store == SeedPass(s, uid, manifest[..r.done], {}).store
    decreases |manifest|
  {
    var r := SeedPass(s, uid, manifest, faults);
    if manifest != [] {
      var e := manifest[0];
      var find := FindMany(uid, "name", e.name);
      var absent := Named(Coll(s, uid), e.name) == 0;
      if find in faults || (absent && Create(uid, EntryRecord(e)) in faults) {
        assert r.done == 0 && r.store == s;
      } else {
        var s' := if absent then Insert(s, uid, EntryRecord(e)) else s;
        var rest := SeedPass(s', uid, manifest[1..], faults);
        assert r.done == rest.done + 1 && r.store == rest.store;
        SeedPassStopsEarly(s', uid, manifest[1..], faults);
        var prefix := manifest[..r.done];
        assert prefix[0] == e;
        assert prefix[1..] == manifest[1..][..rest.done];
        assert SeedPass(s, uid, prefix, {}).store == SeedPass(s', uid, prefix[1..], {}).store;
      }
    }
  }

  lemma ScriptManifestHasDistinctNames()
    ensures DistinctNames(ScriptManifest.roomTypes) && DistinctNames(ScriptManifest.facilities)
  {
  }

  /** Outcome of the seeding step: a seeding error is logged and swallowed, never propagated. */
  datatype Seeding = Seeding(store: Store, trace: seq<Call>, swallowed: Option<Call>)

  /** A pass over `manifest` when content type `uid` is registered; nothing at all otherwise. */
  function SeedIfRegistered(s: Store, uid: string, manifest: seq<Entry>, contentTypes: set<string>, faults: set<Call>): (r: Pass)
    ensures uid !in contentTypes ==> r == Pass(s, [], 0, None)
    ensures r.store - {uid} == s - {uid}
    ensures Coll(s, uid) <= Coll(r.store, uid)
  {
    if uid in contentTypes then SeedPass(s, uid, manifest, faults) else Pass(s, [], 0, None)
  }

  /**
   * `seedDefaultData`: room types, then facilities, each only when its
   * content type is registered. The first error ends all seeding, the
   * facilities included, and is swallowed.
   */
  function SeedDefaultData(s: Store, manifest: Manifest, contentTypes: set<string>, faults: set<Call>): (r: Seeding)
    ensures r.store - {RoomTypeUid, FacilityUid} == s - {RoomTypeUid, FacilityUid}
    ensures RoomTypeUid !in contentTypes ==> r.store - {FacilityUid} == s - {FacilityUid}
    ensures FacilityUid !in contentTypes ==> r.store - {RoomTypeUid} == s - {RoomTypeUid}
    ensures Coll(s, RoomTypeUid) <= Coll(r.store, RoomTypeUid)
    ensures Coll(s, FacilityUid) <= Coll(r.store, FacilityUid)
  {
    var rooms := SeedIfRegistered(s, RoomTypeUid, manifest.roomTypes, contentTypes, faults);
    CollOutside(s, rooms.store, {RoomTypeUid}, FacilityUid);
    if rooms.error.Some? then
      FrameCompose(s, rooms.store, rooms.store, RoomTypeUid, FacilityUid);
      Seeding(rooms.store, rooms.trace, rooms.error)
    else
      var facilities := SeedIfRegistered(rooms.store, FacilityUid, manifest.facilities, contentTypes, faults);
      FrameCompose(s, rooms.store, facilities.store, RoomTypeUid, FacilityUid);
      CollOutside(rooms.store, facilities.store, {FacilityUid}, RoomTypeUid);
      Seeding(facilities.store, rooms.trace + facilities.trace, facilities.error)
  }


  /**
   * The seeding step stops at the first call that throws, and changes the
   * store by the successful creates among its calls only.
   */
  lemma SeedDefaultDataStops(s: Store, manifest: Manifest, contentTypes: set<string>, faults: set<Call>)
    ensures var r := SeedDefaultData(s, manifest, contentTypes, faults);
      && StopsAtFirstFault(r.trace, r.swallowed, faults)
      && r.store == Replay(s, r.trace, faults)
  {
    var rooms := SeedIfRegistered(s, RoomTypeUid, manifest.roomTypes, contentTypes, faults);
    SeedPassStops(s, RoomTypeUid, manifest.roomTypes, faults);
    SeedPassReplay(s, RoomTypeUid, manifest.roomTypes, faults);
    if rooms.error.None? {
      var facilities' := SeedIfRegistered(rooms.store, FacilityUid, manifest.facilities, contentTypes, faults);
      SeedPassStops(rooms.store, FacilityUid, manifest.facilities, faults);
      SeedPassReplay(rooms.store, FacilityUid, manifest.facilities, faults);
      StopsAfterClean(rooms.trace, facilities'.trace, facilities'.error, faults);
      ReplayConcat(s, rooms.trace, facilities'.trace, faults);
    }
  }

  /**
   * The seeding step only calls on the two lookup collections, and when a
   * room-type call fails no facility call is made at all.
   */
  lemma SeedDefaultDataCollections(s: Store, manifest: Manifest, contentTypes: set<string>, faults: set<Call>)
    ensures var r := SeedDefaultData(s, manifest, contentTypes, faults);
      && (forall c | c in r.trace :: OnCollection(c, RoomTypeUid) || OnCollection(c, FacilityUid))
      && (r.swallowed.Some? && OnCollection(r.swallowed.value, RoomTypeUid) ==>
            forall c | c in r.trace :: OnCollection(c, RoomTypeUid))
  {
    var rooms := SeedIfRegistered(s, RoomTypeUid, manifest.roomTypes, contentTypes, faults);
    SeedPassStaysOnCollection(s, RoomTypeUid, manifest.roomTypes, faults);
    if rooms.error.None? {
      var facilities' := SeedIfRegistered(rooms.store, FacilityUid, manifest.facilities, contentTypes, faults);
      SeedPassStaysOnCollection(rooms.store, FacilityUid, manifest.facilities, faults);
      if facilities'.error.Some? {
        assert !OnCollection(facilities'.error.value, RoomTypeUid);
      }
    }
  }

  /**
   * With no failure and both content types registered, each lookup
   * collection gains exactly its missing manifest records.
   */
  lemma SeedDefaultDataInsertsMissing(s: Store, manifest: Manifest, contentTypes: set<string>)
    requires DistinctNames(manifest.roomTypes) && DistinctNames(manifest.facilities)
    requires RoomTypeUid in contentTypes && FacilityUid in contentTypes
    ensures var r := SeedDefaultData(s, manifest, contentTypes, {});
      && r.swallowed == None
      && Coll(r.store, RoomTypeUid) == Coll(s, RoomTypeUid) + Missing(Coll(s, RoomTypeUid), manifest.roomTypes)
      && Coll(r.store, FacilityUid) == Coll(s, FacilityUid) + Missing(Coll(s, FacilityUid), manifest.facilities)
  {
    var rooms := SeedPass(s, RoomTypeUid, manifest.roomTypes, {});
    SeedPassInsertsMissing(s, RoomTypeUid, manifest.roomTypes);
    SeedPassStops(s, RoomTypeUid, manifest.roomTypes, {});
    SeedPassInsertsMissing(rooms.store, FacilityUid, manifest.facilities);
    CollOutside(s, rooms.store, {RoomTypeUid}, FacilityUid);
    var facilities' := SeedPass(rooms.store, FacilityUid, manifest.facilities, {});
    CollOutside(rooms.store, facilities'.store, {FacilityUid}, RoomTypeUid);
  }

  /** Seeding again from the store a failure-free seeding produced changes nothing and creates nothing. */
  lemma SeedDefaultDataIdempotent(s: Store, manifest: Manifest, contentTypes: set<string>)
    ensures var once := SeedDefaultData(s, manifest, contentTypes, {});
      var twice := SeedDefaultData(once.store, manifest, contentTypes, {});
      twice.store == once.store && twice.swallowed == None && ReadOnly(twice.trace)
  {
    var once := SeedDefaultData(s, manifest, contentTypes, {});
    var rooms := SeedIfRegistered(s, RoomTypeUid, manifest.roomTypes, contentTypes, {});
    SeedPassStops(s, RoomTypeUid, manifest.roomTypes, {});
    CollOutside(rooms.store, once.store, {FacilityUid}, RoomTypeUid);
    if RoomTypeUid in contentTypes {
      SeedPassCovers(s, RoomTypeUid, manifest.roomTypes);
      SeedPassOnSeededStore(once.store, RoomTypeUid, manifest.roomTypes);
    }
    var again := SeedIfRegistered(once.store, RoomTypeUid, manifest.roomTypes, contentTypes, {});
    assert again.store == once.store && again.error == None && ReadOnly(again.trace);
    if FacilityUid in contentTypes {
      SeedPassCovers(rooms.store, FacilityUid, manifest.facilities);
      SeedPassOnSeededStore(once.store, FacilityUid, manifest.facilities);
    }
  }
}

=== FILE: text_fields.dfy ===
/**
 * The text handling of a Django REST framework `CharField`: with the default
 * `trim_whitespace=True` a submitted string is stripped of leading and
 * trailing whitespace (Python's `str.strip()`) before validation and
 * storage; with `allow_blank=False` a value that strips to nothing is
 * rejected; and a value holding the NUL character is always rejected.
 */
module TextFields {

  /** Python's `str.isspace()` for one character: the characters `str.strip()` removes. */
  predicate IsSpace(c: char)
  {
    || c == ' '
    || ('\t' <= c <= '\r')
    || ('\U{1C}' <= c <= '\U{1F}')
    || c == '\U{85}' || c == '\U{A0}' || c == '\U{1680}'
    || ('\U{2000}' <= c <= '\U{200A}')
    || c == '\U{2028}' || c == '\U{2029}' || c == '\U{202F}' || c == '\U{205F}' || c == '\U{3000}'
  }

  /** How many whitespace characters `s` starts with. */
  function Leading(s: string): (n: nat)
    ensures n <= |s|
    ensures forall k | 0 <= k < n :: IsSpace(s[k])
    ensures n < |s| ==> !IsSpace(s[n])
  {
    if s == [] || !IsSpace(s[0]) then 0 else 1 + Leading(s[1..])
  }

  /** How many whitespace characters `s` ends with. */
  function Trailing(s: string): (n: nat)
    ensures n <= |s|
    ensures forall k | |s| - n <= k < |s| :: IsSpace(s[k])
    ensures n < |s| ==> !IsSpace(s[|s| - n - 1])
  {
    if s == [] || !IsSpace(s[|s| - 1]) then 0 else 1 + Trailing(s[..|s| - 1])
  }

  /**
   * `str.strip()`: `s` with its leading and trailing whitespace cut off;
   * the result neither starts nor ends with whitespace, and it is empty
   * exactly when `s` is all whitespace.
   */
  function Trim(s: string): (t: string)
    ensures t != [] ==> !IsSpace(t[0]) && !IsSpace(t[|t| - 1])
    ensures t == [] <==> forall k | 0 <= k < |s| :: IsSpace(s[k])
    ensures t != [] ==> Leading(s) + Trailing(s) < |s| && t == s[Leading(s)..|s| - Trailing(s)]
  {
    var lead := Leading(s);
    if lead == |s| then []
    else
      s[lead..|s| - Trailing(s)]
  }

  /** A string that neither starts nor ends with whitespace is its own strip. */
  lemma TrimKeepsTrimmed(s: string)
    requires s != [] ==> !IsSpace(s[0]) && !IsSpace(s[|s| - 1])
    ensures Trim(s) == s
  {
    assert s != [] ==> Leading(s) == 0 && Trailing(s) == 0;
  }

  /** Stripping twice is stripping once: a stored value passes through the field unchanged. */
  lemma TrimIdempotent(s: string)
    ensures Trim(Trim(s)) == Trim(s)
  {
    TrimKeepsTrimmed(Trim(s));
  }

  /** `ProhibitNullCharactersValidator`: the value holds the NUL character. */
  predicate HasNul(s: string)
  {
    '\0' in s
  }

  /** NUL is not whitespace, so stripping neither removes nor hides one. */
  lemma TrimKeepsNul(s: string)
    ensures HasNul(Trim(s)) <==> HasNul(s)
  {
    if HasNul(s) {
      var k :| 0 <= k < |s| && s[k] == '\0';
      assert !IsSpace(s[k]);
      var t := Trim(s);
      assert Leading(s) <= k < |s| - Trailing(s);
      assert t[k - Leading(s)] == '\0';
    }
  }
}

=== FILE: wrappers.dfy ===
/** Option and Result, used for absent values and for the error paths of the modelled operations. */
module Wrappers {

  datatype Option<+T> = None | Some(value: T)

  datatype Result<+R, +E> = Success(value: R) | Failure(error: E)
}
